=== FILE: README.md ===
# backtest_tools candle downloaders, modelled in Dafny

This project models the parts of backtest_tools that fetch historical price candles (OHLCV) from crypto exchanges and keep them on disk as CSV files:

- **`ExchangeDataManager`** (`utilities/data_manager.py`, module `DataManager`). This is the Python synchroniser. For every interval and coin it:
  - decides whether the coin's file is current, or from which stored timestamp downloading must resume;
  - cuts the missing range into pages of `limit_size_request` candles;
  - downloads every page concurrently, with two attempts each;
  - merges the pages, keeping the first row per timestamp;
  - appends all but the first merged row to the file, or creates the file.

  `load_data` reads a file back.
- **The Node bulk downloader** (`database/download_data.js`, module `DownloadData`). For every timeframe and pair it:
  - turns a "day-month-year" start date into a UTC timestamp;
  - cuts `[start, now)` into pages;
  - fetches each page with up to three attempts;
  - sorts the rows and removes adjacent rows with equal timestamps (`eliminate_double_ts`);
  - writes `./database/<exchange>/<timeframe>/<pair>.csv`.
- **The quick-analysis downloader** (`database/dl_for_quick_analysis.js`, module `QuickAnalysis`). It keeps the exchange's plain USDT markets. For each one it fetches the last `limit` candles and writes them to `./database/quick_analysis/<pair>.csv`, and it counts the downloads that complete.

Shared modules:

- `Candles`: candle rows and timestamp sets, sortedness, the first row per timestamp, and the exchange's `fetch_ohlcv` as an oracle. The oracle takes symbol, timeframe, since and the attempt number, and returns a page or a failure.
- `Paging`: the page starts both downloaders compute.
- `Text`: Python's and JavaScript's `replace`, `split`, `Number`, lower-casing, `substr` and `includes`.
- `JsDate`: `Date.UTC` and the `getUTC*` fields, following section 21.4.1 of ECMA-262.

The file system is a map from path to the rows of the file. Timestamps are integer milliseconds in UTC. Each loop-based operation of the source is a `method`, except the `if i:` loop over the gathered results in `download_data`, which is the recursive function `DataManager.NonEmpty`. Its result, or the new state of its object, is tied in its `ensures` to a specification function. The source's promises are lemmas about those functions. The state-changing objects are `class`es:

- `ExchangeDataManager`, whose `files` the synchronisation updates;
- `CandleArray`, which `eliminate_double_ts` splices in place;
- `Database`, the directory tree the JavaScript downloaders write to.

Behaviours of the synchroniser's code a reader may not expect:

- `download_tf` makes two attempts.
- One failed page makes `asyncio.gather` raise `TooManyError`. The coin's other pages are not kept, and the run ends.
- The merged pages are not sorted before they are appended.
- Appending does not drop rows at or before the last stored timestamp. It skips only the first merged row, which is the first row of the first non-empty page (`DataManager.Merge`). When the exchange's page for the first window starts at the resume point, the second greatest stored timestamp, that row was already stored and nothing is lost (`DataManager.SkippedRowWasStored`). When that page is empty or starts later, the skipped row is a new candle unless its timestamp is the greatest stored one, and a new candle never reaches the file (`DataManager.SkippedRowLost`). A file can also end up with its last timestamp twice (`DataManager.AppendDuplicatesStamp`), and the file need not be strictly increasing. `load_data` hides this by keeping the first row of every timestamp (`DataManager.AppendKeepsStoredRows`, `DataManager.LoadRowsMeaning`).
- A missing file starts at 2017-01-01 whatever `start_date` is.
- The default `end_date`, `datetime.now()` at utilities/data_manager.py:150, is evaluated once, when the class is defined, so the default end is the time the module was imported, not the time of the call. The model takes the end as a parameter.

## Model

| member | source | states |
|---|---|---|
| DataManager.ResolveExchange | utilities/data_manager.py:106-112 | Lower-cases the name first, folding ASCII capitals and the KELVIN SIGN as `lower()` does. It succeeds exactly for the six supported exchanges and gives that exchange's request limit, which is positive. Any other name gives `NotImplementedError`. |
| DataManager.KelvinSelectsKucoin | utilities/data_manager.py:106-109 | A name spelt with the KELVIN SIGN in place of `K` selects kucoin with its limit of 1500. |
| DataManager.ResolveIgnoresCase | utilities/data_manager.py:106 | Spelling the exchange in another case gives the same outcome. |
| DataManager.IntervalCatalogue | utilities/data_manager.py:43-92 | Every interval has a positive `interval_ms`. The grid step and `interval_ms` agree for every interval except "1M", whose step is 30 days while its pages use months of 2629746000 ms. |
| DataManager.CreateTimedelta | utilities/data_manager.py:305-314 | Succeeds exactly for the twelve catalogued interval names, giving a step of at least a minute. An unknown name gives `ValueError`. |
| DataManager.PageSpan | utilities/data_manager.py:191-192 | A page covers `limit_size_request * interval_ms` ms, which is at least the limit. |
| DataManager.FileName | utilities/data_manager.py:176-178 | The file sits directly in the interval's directory. No `/` is left in the coin part, because Python's `replace` replaces them all. |
| DataManager.CreateIntervals | utilities/data_manager.py:290-303 | The generator loop yields exactly the grid `start, start + delta, ...` up to `end`. |
| DataManager.GridShape | utilities/data_manager.py:290-303 | The grid is empty iff `start > end`. Otherwise it is evenly spaced, strictly increasing and never passes `end`, and one more step would pass it. |
| DataManager.GridLast | utilities/data_manager.py:166-170 | `last_dt` is the greatest `start + k * delta` that does not pass `end`. |
| DataManager.GroupFirst | utilities/data_manager.py:139 | `groupby(index).first()` keeps one row per stored timestamp, strictly ascending. The rows kept are exactly the first row of each timestamp. |
| DataManager.GroupFirstPicksFirst | utilities/data_manager.py:139 | Every kept row is the first row the file holds for its timestamp. Every such first row is kept. |
| DataManager.InRange | utilities/data_manager.py:140 | A row is kept iff it is in the input and its timestamp is within `[lo, hi]`. |
| DataManager.DropLast | utilities/data_manager.py:141 | `iloc[:-1]` is a prefix one row shorter, and empty when the input is. |
| DataManager.LoadRowsMeaning | utilities/data_manager.py:137-143 | The result is strictly increasing. Each row is within range and is the first row of its timestamp. A stored timestamp in range is returned iff a later stored timestamp is also in range. |
| DataManager.ExchangeDataManager.LoadData | utilities/data_manager.py:122-143 | Raises `FileNotFoundError` with the file name iff the coin's file is absent. Otherwise it returns the loaded rows. |
| DataManager.IsDataMissing | utilities/data_manager.py:262-288 | No file means resume from 2017-01-01. An empty file means `IndexError`. A resume point is a stored timestamp before `last_dt`. |
| DataManager.IsDataMissingMeaning | utilities/data_manager.py:277-288 | Let m be the greatest stored timestamp. If m reaches `last_dt` the file is current. If m is the only stored timestamp, the result is `IndexError`. Otherwise downloading resumes from the second greatest stored timestamp. |
| DataManager.DownloadTf | utilities/data_manager.py:232-260 | One or two attempts. The result is the first attempt that returns a page. It is `TooManyError` after two failures. |
| DataManager.GatherMeaning | utilities/data_manager.py:198 | `gather` succeeds iff every task does, with page i from task i. Otherwise it raises an exception that one of the tasks raised. |
| DataManager.GatherWindows | utilities/data_manager.py:185-198 | Downloading succeeds iff every window has a success among its two attempts. Page i is then window i's first successful response. Otherwise the error is `TooManyError`. |
| DataManager.DownloadWindows | utilities/data_manager.py:185-194 | The `while True` loop starts one task per window start. The starts are exactly the page starts from the resume point, `span` apart, below `end_timestamp`. |
| DataManager.NonEmpty | utilities/data_manager.py:202-206 | Keeps exactly the pages that hold rows. The concatenation is unchanged. |
| DataManager.Merge | utilities/data_manager.py:209-216 | The merged rows are a subsequence of the pages in window order, not re-sorted. Each timestamp appears once, carried by the row at its first position, and every downloaded timestamp is present. The rows keep the order in which their timestamps first appear, so the first merged row is the first downloaded row. |
| DataManager.Commit | utilities/data_manager.py:217-223 | An existing file keeps its rows and gets all merged rows but the first. A new file gets all of them. |
| Candles.KeepFirstIdempotent | utilities/data_manager.py:216 | Keeping the first row of every timestamp is idempotent: doing it twice equals doing it once. |
| DataManager.AppendKeepsStoredRows | utilities/data_manager.py:217-220 | After an append, a reader picks the same row it picked before for every timestamp already in the file. |
| DataManager.SkippedRowWasStored | utilities/data_manager.py:217-220 | If the skipped first row's timestamp was stored, the file afterwards holds exactly the old and the downloaded timestamps. |
| DataManager.SkippedRowLost | utilities/data_manager.py:205-220 | If the skipped first row's timestamp was not stored and the merged rows are distinct, the file afterwards lacks that timestamp. |
| DataManager.AppendDuplicatesStamp | utilities/data_manager.py:217-220 | If the second merged row repeats a stored timestamp, the file then holds that timestamp twice. |
| DataManager.SyncCoin | utilities/data_manager.py:176-226 | Synchronising one coin only grows that coin's file at its end, or creates it, and touches no other file. An `is_data_missing` error, an up-to-date file, a `TooManyError` from `gather` and all-empty pages each leave the files unchanged, with that error or with no error. When the download resumes, every page arrives and some page holds rows, the coin's file becomes the stored rows committed with the merged pages. |
| DataManager.SyncCoins | utilities/data_manager.py:172-223 | The coins of one interval, in order. The first error ends the run. Only those coins' files change, and only by growing. |
| DataManager.SyncInterval | utilities/data_manager.py:164-170 | An unknown interval or an empty grid is an error before any file changes. Otherwise the coins are synchronised up to the grid's last point. |
| DataManager.SyncIntervals | utilities/data_manager.py:145-230 | Intervals in order. The first error ends the run. Files only grow at their end, and no file outside the given intervals × coins changes. |
| DataManager.CurrentFileUntouched | utilities/data_manager.py:180-181 | A file whose greatest timestamp reaches `last_dt` is left unchanged, with no error. |
| DataManager.ExchangeDataManager.constructor | utilities/data_manager.py:106-112 | The manager holds the lower-cased exchange name and that exchange's request limit. |
| DataManager.ExchangeDataManager.Synchronise | utilities/data_manager.py:176-223 | The coin-loop body changes the files and the result exactly as `SyncCoin` does. |
| DataManager.ExchangeDataManager.DownloadData | utilities/data_manager.py:145-230 | The nested loops change the files and the result exactly as `SyncIntervals` does. |
| Paging.WindowsShape | database/download_data.js:48-57 | The page starts are evenly spaced by `span` from the start date. Every start after the first is below `now`, and one more step would reach `now`. |
| Paging.WindowsCount | database/download_data.js:48-58 | `total_request` is `ceil((now - start) / span)`, or 1 when the start is not before `now`. |
| Text.ReplaceAll | utilities/data_manager.py:178 | Same length. Every `from` becomes `to` and every other character stays. |
| Text.ReplaceFirst | database/download_data.js:96 | Only the first `from` becomes `to`. A string without `from` is unchanged. |
| Text.ReplaceFirstAgreesWithAll | database/download_data.js:96 | JavaScript's and Python's `replace` agree on a string iff it holds `from` at most once. |
| Text.ReplaceFirstUndo | database/download_data.js:96 | Replacing the first `/` by a character the pair lacks can be undone, so the file name determines the pair. |
| JsDate.DateUtc | database/download_data.js:10 | `Date.UTC` gives a whole number of days within the time-value range, or NaN. |
| JsDate.FieldsOfMidnight | database/download_data.js:14-18 | The UTC fields of midnight of a calendar day are that day at 0:0. |
| DownloadData.DateToTimestamp | database/download_data.js:8-12 | The parsed date is midnight UTC within the time-value range, or NaN. |
| DownloadData.ParseDate | database/download_data.js:8-12 | "d-m-y" is read as `Date.UTC(y, m - 1, d)`. |
| DownloadData.PlusSignedDate | database/download_data.js:8-12 | A day written with a leading `+` reads as the same date, as `Number("+1")` is 1. |
| DownloadData.ShippedStartDate | database/download_data.js:144 | The shipped start date "01-06-2017" is 1496275200000. |
| DownloadData.DateRoundTrip | database/download_data.js:8-18 | A valid calendar date parses to its midnight UTC. `timestamp_to_date` renders that midnight back unpadded at "0:0", with years 0-99 as 19xx. |
| DownloadData.DatePartRoundTrip | database/download_data.js:8-18 | For any time from the epoch on, the date part of `timestamp_to_date` parses back to the midnight that starts its day. |
| DownloadData.EliminateDoubleTs | database/download_data.js:27-41 | The array afterwards is the input with every element whose timestamp equals its predecessor's removed. |
| DownloadData.CollectRepeats | database/download_data.js:32-36 | The first loop lists, in increasing order, exactly the positions whose timestamp equals that of the previous element. |
| DownloadData.SpliceRepeats | database/download_data.js:37-39 | Splicing those positions out from the last to the first leaves exactly the elements `eliminate_double_ts` keeps. |
| DownloadData.DedupAdjacentFacts | database/download_data.js:27-41 | The result is a subsequence with no two adjacent equal timestamps, and it loses no timestamp. |
| DownloadData.DedupAdjacentOfClean | database/download_data.js:27-41 | An array without adjacent repeats is left unchanged. |
| DownloadData.DedupAdjacentIdempotent | database/download_data.js:27-41 | Cleaning twice is cleaning once. |
| DownloadData.FinaliseFacts | database/download_data.js:91-94 | After the sort and the clean-up, timestamps are strictly increasing and are exactly those collected. The rows are a sub-multiset of the collected ones. |
| DownloadData.FinaliseStampsIgnoreOrder | database/download_data.js:60-94 | The order in which pages arrive does not change which timestamps are written. |
| DownloadData.TfArray | database/download_data.js:48-57 | The loop builds exactly the page starts from the start date, `span` apart, below `now`, and always the start date itself. |
| DownloadData.FetchWindow | database/download_data.js:60-82 | One to three attempts with the same arguments. The result is the first page that arrives, or nothing after three failures. |
| DownloadData.CollectedMeaning | database/download_data.js:60-89 | A row is collected iff it is in the page that one window's retry chain returned. |
| DownloadData.PairWithTwoSlashes | database/download_data.js:96-98 | "A/B/C" is written to ".../A-B/C.csv", while Python's replace would give "A-B-C". |
| DownloadData.OhlcvOutcomeFacts | database/download_data.js:43-117 | Whatever `get_ohlcv` writes is non-empty with strictly increasing timestamps, exactly those of the pages that arrived. The wait loop ends with `current_request == total_request == ceil((now - start) / span)`. |
| DownloadData.GetOhlcv | database/download_data.js:43-117 | Returns NaN-date or no-candles failures, or the path, the rows, the first date and the request counts that one `get_ohlcv` call produces. |
| DownloadData.FetchPages | database/download_data.js:60-82 | The request loop collects, in window order, the page each window's retry chain returned, and counts every window once, whether its page arrived or not. |
| DownloadData.TfMajorAt | database/download_data.js:119-132 | The call for pair j of timeframe i is call number `i * |pairs| + j`. |
| DownloadData.RunPairsCalls | database/download_data.js:121-130 | The inner loop calls `get_ohlcv` once per pair in order. A failure stops it right after the failing call. |
| DownloadData.RunAllCalls | database/download_data.js:119-132 | A successful run makes exactly the timeframe-major calls. A failed run made a non-empty prefix of them. |
| DownloadData.RunAllWrites | database/download_data.js:119-132 | Every file a run writes holds strictly increasing timestamps. |
| DownloadData.Database.GetPairs | database/download_data.js:121-130 | The inner loop changes the files and returns the outcome and the calls exactly as `RunPairs` describes. |
| DownloadData.Database.GetMultiOhlcv | database/download_data.js:119-132 | The nested loops give the outcome, the files and the calls that `RunAll` describes. |
| QuickAnalysis.Filter | database/dl_for_quick_analysis.js:95-99 | `filter` keeps exactly the elements that pass, and never lengthens the list. |
| QuickAnalysis.UsdtSymbolsIsOneFilter | database/dl_for_quick_analysis.js:95-99 | The five filters in a row equal one filter by "ends in USDT and holds none of BULL, DOWN, UP, BEAR". |
| QuickAnalysis.UsdtSymbolsMembers | database/dl_for_quick_analysis.js:95-99 | A symbol is kept iff it is a market of the exchange and wanted. |
| QuickAnalysis.UsdtSymbolsSubseq | database/dl_for_quick_analysis.js:95-99 | The kept symbols keep the exchange's order. |
| QuickAnalysis.UsdtSymbolsIdempotent | database/dl_for_quick_analysis.js:95-99 | Filtering again changes nothing. |
| QuickAnalysis.SuperUsdtDropped | database/dl_for_quick_analysis.js:98 | "SUPER/USDT" is dropped because it contains "UP". |
| QuickAnalysis.BtcUsdtKept | database/dl_for_quick_analysis.js:95-99 | An ordinary USDT market such as "BTC/USDT" is kept. |
| QuickAnalysis.OnePageBack | database/dl_for_quick_analysis.js:66-67 | `since_date` lies exactly `limit` candles before `now`, so the request is one page. |
| QuickAnalysis.QuickPathOfPair | database/dl_for_quick_analysis.js:68-70 | "BTC/USDT" is written to "./database/quick_analysis/BTC-USDT.csv". |
| QuickAnalysis.QuickPathInjective | database/dl_for_quick_analysis.js:68-70 | Distinct symbols without `-` get distinct files. |
| QuickAnalysis.DlOneSymbol | database/dl_for_quick_analysis.js:64-90 | The promise never settles iff the fetch is rejected. Otherwise it resolves with the write's success, the symbol's path and the fetched page. |
| QuickAnalysis.CompletedBounds | database/dl_for_quick_analysis.js:102-111 | The counter never passes the total. It reaches the total iff every promise settles. |
| QuickAnalysis.AllCoinsCounted | database/dl_for_quick_analysis.js:102-111 | The counter reaches `total_request` iff no fetch was rejected, however the writes went. |
| QuickAnalysis.SymbolFile | database/dl_for_quick_analysis.js:64-111 | For distinct symbols without `-`, an arrived page that was written successfully is what the symbol's file holds. A rejected fetch leaves the file as it was. |
| QuickAnalysis.GetAllCoin | database/dl_for_quick_analysis.js:92-113 | `total_request` is the number of kept symbols. `current_request` counts the settled downloads, and the files become what their writes leave. |

## Left out

- Concurrency is modelled by outcome, not by schedule. The Python `gather`, the JavaScript pages and the quick-analysis downloads run concurrently in the source. The model settles them in start order. For `get_ohlcv` the order only decides which of two equal-timestamp rows survives, never which timestamps are written (`DownloadData.FinaliseStampsIgnoreOrder`).
- Time zones are not modelled. Python's naive datetimes, and `datetime.fromisoformat('2017-01-01')` in particular, are taken as UTC. `now`, `end_date` and `current_utc_date()` are parameters (`clock` in `QuickAnalysis.GetAllCoin`).
- DataManager.ExchangeDataManager.DownloadData takes `start_date` and `end_date` as integer milliseconds. The source parses both strings with `datetime.strptime(..., "%Y-%m-%d %H:%M:%S")` (utilities/data_manager.py:161-162), after `load_markets()`. A string in any other format, such as "2021-01-01", raises `ValueError` there, before any file is touched. Neither the parse nor that `ValueError` is modelled.
- `load_data` takes its `start_date`/`end_date` bounds as integer milliseconds. pandas' partial-date string slicing is not modelled. CSV text, `read_csv` and NaN handling in `groupby` are not modelled either: files hold candle rows.
- `Text.ToNumber` reads digit strings, with or without a leading `+`. Other forms that `Number` accepts (surrounding blanks, exponents, hex, fractions) are not modelled. A `-` sign cannot reach it, because `date_to_timestamp` splits on `-`.
- In `get_ohlcv` the CSV write is not awaited and its failure is only logged. The model writes the rows and does not model write errors.
- `DownloadData.GetOhlcv` returns `InvalidDate` for a start date that is not a date. In the source, every page then starts at NaN and one request is sent with `since` NaN, whose result depends on the exchange.
- DownloadData.GetOhlcv requires a positive page width, `limit * tf_ms > 0` (`span > 0`). In the source a non-positive width makes the page loop run forever.
- DownloadData.Database.GetMultiOhlcv reads the clock once: one `now` serves every `get_ohlcv` call of the run. The source reads `current_utc_date()` anew in each call, after the previous call has finished, so a later pair or timeframe can get one more page than the model gives it.
- DownloadData.Database.GetPairs, and `DownloadData.RunPairs` and `DownloadData.RunAll`, which specify the loops, share that single `now` in the same way.
- DownloadData.Database.GetMultiOhlcv requires every timeframe to have an entry in `tf_ms` and the exchange to have one in `exchange_limit` (`Configured`). In the source a missing key yields `undefined` and a NaN page width.
- QuickAnalysis.DlOneSymbol models a rejected fetch as a download that never settles while the others carry on, resolving and writing; `QuickAnalysis.GetAllCoin` and `QuickAnalysis.SymbolFile` rest on this. The fetch at database/dl_for_quick_analysis.js:67 has no `.catch`, so this is Node's behaviour before version 15 or with `--unhandled-rejections=warn`. Under the default since Node 15, the first unhandled rejection ends the process and writes still in flight are lost. `QuickAnalysis.AllCoinsCounted` holds under either runtime: the counter never reaches the total.
- DataManager.ResolveExchange folds case only for ASCII letters and the KELVIN SIGN. The other non-ASCII mappings of Python's `lower()` are not modelled. None of them turns a character into one ASCII letter, so which exchange is selected is unaffected, but the name in a `NotImplementedError` may differ.
- DataManager.ExchangeDataManager.constructor requires a supported exchange. The `NotImplementedError` path is `DataManager.ResolveExchange`.
- Progress output (tqdm, `process.stdout.write`, `console.log`, `print`), the 2-second wait loop, directory creation, `exchange.close()` and `load_markets()` are left out. So are the reading of the JSON configuration files, `explore_data` and `delete_directory`.
- bitget's extra, printed `fetch_ohlcv` call and its `params={'timeframe': ...}` form are left out. The oracle answers the same for every exchange.
- DownloadData.JsFilePath, QuickAnalysis.QuickPath, QuickAnalysis.SinceDate and QuickAnalysis.UsdtSymbols carry no `ensures`. What they mean is stated by `PairWithTwoSlashes`, `Text.ReplaceFirstUndo`, `QuickPathOfPair`, `QuickPathInjective`, `OnePageBack` and the `UsdtSymbols*` lemmas.
- `eliminate_double_ts` in `database/dl_for_quick_analysis.js` is a copy of the one in `database/download_data.js` and is never called there. It is modelled once, as `DownloadData.EliminateDoubleTs`.
- `utilities/backtesting.py`, `utilities/custom_indicators.py` and `utilities/get_data.py` are not part of this model.

=== FILE: candles.dfy ===
/** Vocabulary shared by the three downloaders: candles, the exchange seen as an
    oracle, bounded retry, and the order-related operations on candle sequences
    (keep-first deduplication, stable sort by timestamp, subsequences). */
module Candles {

  import opened Wrappers

  /** Open, high, low, close and volume; the downloaders never look inside. */
  type Payload = seq<int>

  /** One OHLCV row: its timestamp (milliseconds since the epoch) and its payload. */
  datatype Candle = Candle(ts: int, payload: Payload)

  /** The outcome of one `fetch_ohlcv` call: a page of rows, or a thrown error. */
  datatype Fetch = Page(rows: seq<Candle>) | Failure

  /** The exchange as an oracle: symbol, timeframe, since, and the attempt number
      (1 for the first try of a window), so that a retry may see another outcome. */
  type Oracle = (string, string, int, nat) -> Fetch

  /** The timestamps that occur in `s`. */
  function StampSet(s: seq<Candle>): set<int>
  {
    set c | c in s :: c.ts
  }

  predicate SortedByTs(s: seq<Candle>)
  {
    forall i, j :: 0 <= i < j < |s| ==> s[i].ts <= s[j].ts
  }

  predicate StrictlyIncreasing(s: seq<Candle>)
  {
    forall i, j :: 0 <= i < j < |s| ==> s[i].ts < s[j].ts
  }

  predicate DistinctStamps(s: seq<Candle>)
  {
    forall i, j :: 0 <= i < j < |s| ==> s[i].ts != s[j].ts
  }

  /** `s[k]` is the first row of `s` that carries its timestamp. */
  predicate IsFirstOf(s: seq<Candle>, k: int)
    requires 0 <= k < |s|
  {
    forall j :: 0 <= j < k ==> s[j].ts != s[k].ts
  }

  /** `a` is `b` with some elements left out, the rest in their order. */
  predicate Subseq<T(==)>(a: seq<T>, b: seq<T>)
    decreases |b|
  {
    if a == [] then true
    else if b == [] then false
    else if a[0] == b[0] then Subseq(a[1..], b[1..])
    else Subseq(a, b[1..])
  }

  function Concat(pages: seq<seq<Candle>>): seq<Candle>
  {
    if pages == [] then [] else pages[0] + Concat(pages[1..])
  }

  function Last(s: seq<Candle>): Candle
    requires s != []
  {
    s[|s| - 1]
  }

  // ---------------------------------------------------------------------------
  // Bounded retry

  /** The first attempt in `from..upto` whose fetch succeeds, with its page.
      Both downloaders retry one window with the same arguments; they differ only
      in `upto`. */
  function FirstSuccess(fetch: Oracle, symbol: string, timeframe: string, since: int,
                        from: nat, upto: nat): (r: Option<(seq<Candle>, nat)>)
    decreases upto + 1 - from
    ensures r.Some? ==>
      from <= r.value.1 <= upto &&
      fetch(symbol, timeframe, since, r.value.1) == Page(r.value.0) &&
      forall k :: from <= k < r.value.1 ==> fetch(symbol, timeframe, since, k) == Failure
    ensures r.None? ==>
      forall k :: from <= k <= upto ==> fetch(symbol, timeframe, since, k) == Failure
  {
    if from > upto then None
    else match fetch(symbol, timeframe, since, from)
      case Page(rows) => Some((rows, from))
      case Failure => FirstSuccess(fetch, symbol, timeframe, since, from + 1, upto)
  }

  // ---------------------------------------------------------------------------
  // Subsequences

  lemma {:induction false} SubseqRefl<T>(a: seq<T>)
    ensures Subseq(a, a)
  {
    if a != [] {
      SubseqRefl(a[1..]);
    }
  }

  /** Leaving out one more element at the front keeps a subsequence. */
  lemma {:induction false} SubseqSkip<T>(a: seq<T>, x: T, b: seq<T>)
    requires Subseq(a, b)
    ensures Subseq(a, [x] + b)
    decreases |b|, 1
  {
    if a != [] && a[0] == x {
      SubseqDropFirst(a, b);
      assert ([x] + b)[1..] == b;
    } else {
      assert ([x] + b)[1..] == b;
    }
  }

  lemma {:induction false} SubseqDropFirst<T>(a: seq<T>, b: seq<T>)
    requires a != [] && Subseq(a, b)
    ensures Subseq(a[1..], b)
    decreases |b|, 0
  {
    if a[0] == b[0] {
      SubseqSkip(a[1..], b[0], b[1..]);
      assert [b[0]] + b[1..] == b;
    } else {
      SubseqDropFirst(a, b[1..]);
      SubseqSkip(a[1..], b[0], b[1..]);
      assert [b[0]] + b[1..] == b;
    }
  }

  lemma {:induction false} SubseqCons<T>(x: T, a: seq<T>, b: seq<T>)
    requires Subseq(a, b)
    ensures Subseq([x] + a, [x] + b)
  {
    assert ([x] + a)[1..] == a;
    assert ([x] + b)[1..] == b;
  }

  /** Every element of a subsequence occurs in the sequence. */
  lemma {:induction false} SubseqElements<T>(a: seq<T>, b: seq<T>)
    requires Subseq(a, b)
    ensures forall x :: x in a ==> x in b
    decreases |b|
  {
    if a != [] {
      if a[0] == b[0] {
        SubseqElements(a[1..], b[1..]);
        forall x | x in a ensures x in b {
          if x != a[0] {
            assert x in a[1..];
          }
        }
      } else {
        SubseqElements(a, b[1..]);
      }
    }
  }

  lemma {:induction false} SubseqTrans<T>(a: seq<T>, b: seq<T>, c: seq<T>)
    requires Subseq(a, b) && Subseq(b, c)
    ensures Subseq(a, c)
    decreases |c|
  {
    if a != [] {
      assert b != [] && c != [];
      if b[0] == c[0] {
        if a[0] == b[0] {
          SubseqTrans(a[1..], b[1..], c[1..]);
        } else {
          SubseqTrans(a, b[1..], c[1..]);
        }
      } else {
        SubseqTrans(a, b, c[1..]);
        if a[0] == c[0] {
          SubseqDropFirst(a, c[1..]);
        }
      }
    }
  }

  /** Appending the same element to both sides keeps a subsequence. */
  lemma {:induction false} SubseqSnoc<T>(a: seq<T>, b: seq<T>, x: T)
    requires Subseq(a, b)
    ensures Subseq(a + [x], b + [x])
    decreases |b|
  {
    if a == [] {
      SubseqOfSingleton(x, b);
      assert a + [x] == [x];
    } else {
      assert (a + [x])[1..] == a[1..] + [x];
      assert (b + [x])[1..] == b[1..] + [x];
      if a[0] == b[0] {
        SubseqSnoc(a[1..], b[1..], x);
      } else {
        SubseqSnoc(a, b[1..], x);
      }
    }
  }

  lemma {:induction false} SubseqOfSingleton<T>(x: T, b: seq<T>)
    ensures Subseq([x], b + [x])
    decreases |b|
  {
    if b != [] {
      assert (b + [x])[1..] == b[1..] + [x];
      SubseqOfSingleton(x, b[1..]);
    }
  }

  /** Leaving out one more element at the back keeps a subsequence. */
  lemma {:induction false} SubseqExtend<T>(a: seq<T>, b: seq<T>, x: T)
    requires Subseq(a, b)
    ensures Subseq(a, b + [x])
    decreases |b|
  {
    if a != [] {
      assert (b + [x])[1..] == b[1..] + [x];
      if a[0] == b[0] {
        SubseqExtend(a[1..], b[1..], x);
      } else {
        SubseqExtend(a, b[1..], x);
      }
    }
  }

  lemma {:induction false} SubseqSorted(a: seq<Candle>, b: seq<Candle>)
    requires Subseq(a, b) && SortedByTs(b)
    ensures SortedByTs(a)
    decreases |b|
  {
    if a != [] {
      if a[0] == b[0] {
        SubseqSorted(a[1..], b[1..]);
        SubseqElements(a[1..], b[1..]);
        forall i, j | 0 <= i < j < |a| ensures a[i].ts <= a[j].ts {
          if i == 0 {
            assert a[j] == a[1..][j - 1];
            assert a[j] in a[1..];
            assert a[j] in b[1..];
            var k :| 0 <= k < |b[1..]| && b[1..][k] == a[j];
            assert b[k + 1] == a[j];
          } else {
            assert a[i] == a[1..][i - 1] && a[j] == a[1..][j - 1];
          }
        }
      } else {
        SubseqSorted(a, b[1..]);
      }
    }
  }

  // ---------------------------------------------------------------------------
  // Keep-first deduplication (pandas `duplicated(keep='first')`, `groupby().first()`)

  /** `s` without the rows whose timestamp already occurred earlier in `s`. */
  function KeepFirst(s: seq<Candle>): seq<Candle>
  {
    if s == [] then []
    else
      var init := s[..|s| - 1];
      if Last(s).ts in StampSet(init) then KeepFirst(init) else KeepFirst(init) + [Last(s)]
  }

  lemma {:induction false} KeepFirstStamps(s: seq<Candle>)
    ensures StampSet(KeepFirst(s)) == StampSet(s)
  {
    if s != [] {
      var init := s[..|s| - 1];
      KeepFirstStamps(init);
      assert s == init + [Last(s)];
      StampSetConcat(init, [Last(s)]);
      StampSetConcat(KeepFirst(init), [Last(s)]);
    }
  }

  lemma {:induction false} KeepFirstDistinct(s: seq<Candle>)
    ensures DistinctStamps(KeepFirst(s))
  {
    if s != [] {
      var init := s[..|s| - 1];
      KeepFirstDistinct(init);
      KeepFirstStamps(init);
      if Last(s).ts !in StampSet(init) {
        var r := KeepFirst(init) + [Last(s)];
        forall i, j | 0 <= i < j < |r| ensures r[i].ts != r[j].ts {
          if j == |r| - 1 {
            assert r[i] in KeepFirst(init);
          }
        }
      }
    }
  }

  lemma {:induction false} KeepFirstSubseq(s: seq<Candle>)
    ensures Subseq(KeepFirst(s), s)
  {
    if s != [] {
      var init := s[..|s| - 1];
      KeepFirstSubseq(init);
      assert s == init + [Last(s)];
      if Last(s).ts in StampSet(init) {
        SubseqExtend(KeepFirst(init), init, Last(s));
      } else {
        SubseqSnoc(KeepFirst(init), init, Last(s));
      }
    }
  }

  /** Every first occurrence of a timestamp survives. */
  lemma {:induction false} KeepFirstKeepsFirst(s: seq<Candle>, k: int)
    requires 0 <= k < |s| && IsFirstOf(s, k)
    ensures s[k] in KeepFirst(s)
  {
    var init := s[..|s| - 1];
    if k == |s| - 1 {
      forall c | c in init ensures c.ts != Last(s).ts {
        var j :| 0 <= j < |init| && init[j] == c;
        assert s[j] == c;
      }
      assert Last(s).ts !in StampSet(init);
    } else {
      assert IsFirstOf(init, k) by {
        forall j | 0 <= j < k ensures init[j].ts != init[k].ts {
          assert init[j] == s[j] && init[k] == s[k];
        }
      }
      KeepFirstKeepsFirst(init, k);
    }
  }

  /** Every surviving row is the first occurrence of its timestamp. */
  lemma {:induction false} KeepFirstOnlyFirst(s: seq<Candle>, c: Candle)
    requires c in KeepFirst(s)
    ensures exists k :: 0 <= k < |s| && s[k] == c && IsFirstOf(s, k)
  {
    var init := s[..|s| - 1];
    if c in KeepFirst(init) {
      KeepFirstOnlyFirst(init, c);
      var k :| 0 <= k < |init| && init[k] == c && IsFirstOf(init, k);
      assert s[k] == c;
      assert IsFirstOf(s, k) by {
        forall j | 0 <= j < k ensures s[j].ts != s[k].ts {
          assert init[j] == s[j];
        }
      }
    } else {
      assert c == Last(s) && Last(s).ts !in StampSet(init);
      var k := |s| - 1;
      forall j | 0 <= j < k ensures s[j].ts != s[k].ts {
        assert s[j] in init;
      }
    }
  }

  /** A sequence whose timestamps are already distinct is left unchanged; in
      particular `KeepFirst` is idempotent. */
  lemma {:induction false} KeepFirstOfDistinct(s: seq<Candle>)
    requires DistinctStamps(s)
    ensures KeepFirst(s) == s
  {
    if s != [] {
      var init := s[..|s| - 1];
      assert DistinctStamps(init) by {
        forall i, j | 0 <= i < j < |init| ensures init[i].ts != init[j].ts {
          assert init[i] == s[i] && init[j] == s[j];
        }
      }
      KeepFirstOfDistinct(init);
      forall c | c in init ensures c.ts != Last(s).ts {
        var j :| 0 <= j < |init| && init[j] == c;
        assert s[j] == c;
      }
      assert Last(s).ts !in StampSet(init);
      assert init + [Last(s)] == s;
    }
  }

  lemma KeepFirstIdempotent(s: seq<Candle>)
    ensures KeepFirst(KeepFirst(s)) == KeepFirst(s)
  {
    KeepFirstDistinct(s);
    KeepFirstOfDistinct(KeepFirst(s));
  }

  /** The first row always survives: it is the first of its timestamp. */
  lemma KeepFirstHead(s: seq<Candle>)
    requires s != []
    ensures KeepFirst(s) != [] && KeepFirst(s)[0] == s[0]
  {
    KeepFirstPrefix([s[0]], s[1..]);
    assert [s[0]] + s[1..] == s;
    assert KeepFirst([s[0]]) == [s[0]] by {
      assert [s[0]][..0] == [];
    }
  }

  /** The position of the first row of `s` with timestamp `t`, or `|s|` when there
      is none. */
  function FirstPos(s: seq<Candle>, t: int): (k: nat)
    ensures k <= |s| && (k < |s| ==> s[k].ts == t)
    ensures forall j :: 0 <= j < k ==> s[j].ts != t
  {
    if s == [] then 0
    else if s[0].ts == t then 0
    else
      var k := 1 + FirstPos(s[1..], t);
      assert forall j :: 1 <= j < k ==> s[j] == s[1..][j - 1];
      k
  }

  /** A row with no earlier row of its timestamp sits at `FirstPos`. */
  lemma FirstPosAt(s: seq<Candle>, k: int)
    requires 0 <= k < |s| && IsFirstOf(s, k)
    ensures FirstPos(s, s[k].ts) == k
  {
  }

  /** Adding a row at the end moves no first position of a timestamp already there. */
  lemma FirstPosSnoc(s: seq<Candle>, c: Candle, t: int)
    requires t in StampSet(s)
    ensures FirstPos(s + [c], t) == FirstPos(s, t) < |s|
  {
    var d :| d in s && d.ts == t;
    var i :| 0 <= i < |s| && s[i] == d;
    var k := FirstPos(s, t);
    assert k <= i;
    assert IsFirstOf(s + [c], k) by {
      forall j | 0 <= j < k ensures (s + [c])[j].ts != (s + [c])[k].ts {
        assert (s + [c])[j] == s[j];
      }
    }
    FirstPosAt(s + [c], k);
  }

  /** Every row `KeepFirst` keeps is the row at the first position of its timestamp. */
  lemma KeepFirstAtFirstPos(s: seq<Candle>)
    ensures var r := KeepFirst(s);
      forall i :: 0 <= i < |r| ==> FirstPos(s, r[i].ts) < |s| && s[FirstPos(s, r[i].ts)] == r[i]
  {
    var r := KeepFirst(s);
    forall i | 0 <= i < |r| ensures FirstPos(s, r[i].ts) < |s| && s[FirstPos(s, r[i].ts)] == r[i] {
      assert r[i] in r;
      KeepFirstOnlyFirst(s, r[i]);
      var k :| 0 <= k < |s| && s[k] == r[i] && IsFirstOf(s, k);
      FirstPosAt(s, k);
    }
  }

  /** What `KeepFirst` keeps stays in the order of first appearance. */
  lemma {:induction false} KeepFirstOrder(s: seq<Candle>)
    ensures var r := KeepFirst(s);
      forall i, j :: 0 <= i < j < |r| ==> FirstPos(s, r[i].ts) < FirstPos(s, r[j].ts)
  {
    if s != [] {
      var init := s[..|s| - 1];
      assert s == init + [Last(s)];
      KeepFirstOrder(init);
      KeepFirstStamps(init);
      var ri := KeepFirst(init);
      forall i | 0 <= i < |ri| ensures FirstPos(s, ri[i].ts) == FirstPos(init, ri[i].ts) < |init| {
        assert ri[i] in ri;
        assert ri[i].ts in StampSet(ri);
        FirstPosSnoc(init, Last(s), ri[i].ts);
      }
      if Last(s).ts !in StampSet(init) {
        assert IsFirstOf(s, |s| - 1) by {
          forall j | 0 <= j < |s| - 1 ensures s[j].ts != Last(s).ts {
            assert s[j] == init[j] && init[j] in init;
          }
        }
        FirstPosAt(s, |s| - 1);
      }
    }
  }

  /** Rows added after `a` never displace the rows picked from `a`: what `a` keeps
      is a prefix of what `a + b` keeps. */
  lemma {:induction false} KeepFirstPrefix(a: seq<Candle>, b: seq<Candle>)
    ensures KeepFirst(a) <= KeepFirst(a + b)
    decreases |b|
  {
    if b == [] {
      assert a + b == a;
    } else {
      var init := b[..|b| - 1];
      KeepFirstPrefix(a, init);
      assert (a + b)[..|a + b| - 1] == a + init;
    }
  }

  // ---------------------------------------------------------------------------
  // Stable sort by timestamp (JavaScript `Array.prototype.sort` with `a[0] - b[0]`,
  // the ascending index of a pandas `groupby`)

  /** Inserts `c` before the first row of the sorted `s` whose timestamp is not
      smaller; rows of equal timestamp keep their relative order. */
  function Insert(c: Candle, s: seq<Candle>): seq<Candle>
  {
    if s == [] || c.ts <= s[0].ts then [c] + s else [s[0]] + Insert(c, s[1..])
  }

  function SortByTs(s: seq<Candle>): seq<Candle>
  {
    if s == [] then [] else Insert(s[0], SortByTs(s[1..]))
  }

  lemma {:induction false} InsertFacts(c: Candle, s: seq<Candle>)
    requires SortedByTs(s)
    ensures SortedByTs(Insert(c, s))
    ensures multiset(Insert(c, s)) == multiset(s) + multiset{c}
  {
    if s == [] || c.ts <= s[0].ts {
    } else {
      var r := Insert(c, s[1..]);
      InsertFacts(c, s[1..]);
      assert s == [s[0]] + s[1..];
      forall x | x in r ensures s[0].ts <= x.ts {
        assert x in multiset(r);
        if x != c {
          assert x in multiset(s[1..]);
          var k :| 0 <= k < |s[1..]| && s[1..][k] == x;
          assert s[k + 1] == x;
        }
      }
      ConsSorted(s[0], r);
    }
  }

  lemma ConsSorted(x: Candle, rest: seq<Candle>)
    requires SortedByTs(rest) && forall d :: d in rest ==> x.ts <= d.ts
    ensures SortedByTs([x] + rest)
  {
    var r := [x] + rest;
    forall i, j | 0 <= i < j < |r| ensures r[i].ts <= r[j].ts {
      assert r[j] == rest[j - 1] && r[j] in rest;
      if i > 0 {
        assert r[i] == rest[i - 1];
      }
    }
  }

  lemma {:induction false} InsertStamps(c: Candle, s: seq<Candle>)
    ensures StampSet(Insert(c, s)) == StampSet(s) + {c.ts}
  {
    if s == [] || c.ts <= s[0].ts {
      StampSetConcat([c], s);
    } else {
      InsertStamps(c, s[1..]);
      assert s == [s[0]] + s[1..];
      StampSetConcat([s[0]], s[1..]);
      StampSetConcat([s[0]], Insert(c, s[1..]));
    }
  }

  lemma {:induction false} InsertDistinct(c: Candle, s: seq<Candle>)
    requires DistinctStamps(s) && c.ts !in StampSet(s)
    ensures DistinctStamps(Insert(c, s))
  {
    if s == [] || c.ts <= s[0].ts {
      ConsDistinct(c, s);
    } else {
      var t := s[1..];
      DistinctTail(s);
      assert StampSet(t) <= StampSet(s) by {
        forall x | x in t ensures x in s { }
      }
      InsertDistinct(c, t);
      InsertStamps(c, t);
      ConsDistinct(s[0], Insert(c, t));
    }
  }

  lemma ConsDistinct(x: Candle, rest: seq<Candle>)
    requires DistinctStamps(rest) && x.ts !in StampSet(rest)
    ensures DistinctStamps([x] + rest)
  {
    var r := [x] + rest;
    forall i, j | 0 <= i < j < |r| ensures r[i].ts != r[j].ts {
      assert r[j] == rest[j - 1] && r[j] in rest;
      if i > 0 {
        assert r[i] == rest[i - 1];
      }
    }
  }

  lemma DistinctTail(s: seq<Candle>)
    requires s != [] && DistinctStamps(s)
    ensures DistinctStamps(s[1..]) && s[0].ts !in StampSet(s[1..])
  {
    var t := s[1..];
    forall i, j | 0 <= i < j < |t| ensures t[i].ts != t[j].ts {
      assert t[i] == s[i + 1] && t[j] == s[j + 1];
    }
    forall x | x in t ensures x.ts != s[0].ts {
      var k :| 0 <= k < |t| && t[k] == x;
      assert s[k + 1] == x;
    }
  }

  /** `SortByTs` returns a sorted permutation of its input. */
  lemma {:induction false} SortByTsFacts(s: seq<Candle>)
    ensures SortedByTs(SortByTs(s))
    ensures multiset(SortByTs(s)) == multiset(s)
  {
    if s != [] {
      SortByTsFacts(s[1..]);
      InsertFacts(s[0], SortByTs(s[1..]));
      assert s == [s[0]] + s[1..];
    }
  }

  /** Sorting keeps the set of timestamps, and keeps distinct timestamps distinct. */
  lemma {:induction false} SortByTsStamps(s: seq<Candle>)
    ensures StampSet(SortByTs(s)) == StampSet(s)
    ensures DistinctStamps(s) ==> DistinctStamps(SortByTs(s))
  {
    if s != [] {
      var t := s[1..];
      SortByTsStamps(t);
      InsertStamps(s[0], SortByTs(t));
      assert s == [s[0]] + t;
      StampSetConcat([s[0]], t);
      if DistinctStamps(s) {
        DistinctTail(s);
        InsertDistinct(s[0], SortByTs(t));
      }
    }
  }

  /** Sorting rows with distinct timestamps makes them strictly increasing. */
  lemma SortDistinctIsStrict(s: seq<Candle>)
    requires DistinctStamps(s)
    ensures StrictlyIncreasing(SortByTs(s))
  {
    SortByTsFacts(s);
    SortByTsStamps(s);
    SortedDistinctIsStrict(SortByTs(s));
  }

  lemma StampSetConcat(a: seq<Candle>, b: seq<Candle>)
    ensures StampSet(a + b) == StampSet(a) + StampSet(b)
  {
    forall t | t in StampSet(a + b) ensures t in StampSet(a) + StampSet(b) {
      var c :| c in a + b && c.ts == t;
      if c in a {
        assert t in StampSet(a);
      } else {
        assert c in b;
        assert t in StampSet(b);
      }
    }
    forall t | t in StampSet(a) + StampSet(b) ensures t in StampSet(a + b) {
      if t in StampSet(a) {
        var c :| c in a && c.ts == t;
        assert c in a + b;
      } else {
        var c :| c in b && c.ts == t;
        assert c in a + b;
      }
    }
  }

  lemma SortedDistinctIsStrict(s: seq<Candle>)
    requires SortedByTs(s) && DistinctStamps(s)
    ensures StrictlyIncreasing(s)
  {
  }
}

=== FILE: data_manager.dfy ===
/** The Python synchroniser `ExchangeDataManager`: it keeps one CSV file of candles
    per (interval, coin) up to date by asking the exchange for the pages that are
    missing, and reads such a file back as a clean series. The file system is a map
    from file name to the rows of the file; timestamps are UTC milliseconds. */
module DataManager {

  import opened Wrappers
  import opened Candles
  import opened Text
  import Paging

  /** The exceptions the synchroniser raises. */
  datatype Error =
    | NotImplementedError(exchange: string)
    | ValueError(interval: string)
    | IndexError
    | TooManyError
    | FileNotFoundError(path: string)

  /** The supported exchanges and the most candles one request may ask for. */
  const Exchanges: map<string, nat> := map[
    "binance" := 1000,
    "binanceusdm" := 1000,
    "kucoin" := 1500,
    "hitbtc" := 1000,
    "bitfinex" := 10000,
    "bitget" := 1000
  ]

  const Minute: nat := 60000
  const Hour: nat := 60 * Minute
  const Day: nat := 24 * Hour
  const Week: nat := 7 * Day

  /** An interval's `timedelta` (the step of the target grid) and its `interval_ms`
      (the width of one candle when pages are laid out), both in milliseconds. */
  datatype IntervalInfo = IntervalInfo(timedeltaMs: nat, intervalMs: nat)

  const Intervals: map<string, IntervalInfo> := map[
    "1m" := IntervalInfo(Minute, 60000),
    "2m" := IntervalInfo(2 * Minute, 120000),
    "5m" := IntervalInfo(5 * Minute, 300000),
    "15m" := IntervalInfo(15 * Minute, 900000),
    "30m" := IntervalInfo(30 * Minute, 1800000),
    "1h" := IntervalInfo(Hour, 3600000),
    "2h" := IntervalInfo(2 * Hour, 7200000),
    "4h" := IntervalInfo(4 * Hour, 14400000),
    "12h" := IntervalInfo(12 * Hour, 43200000),
    "1d" := IntervalInfo(Day, 86400000),
    "1w" := IntervalInfo(Week, 604800000),
    "1M" := IntervalInfo(30 * Day, 2629746000)
  ]

  /** Where a download starts when there is no file yet: 2017-01-01 00:00 UTC. */
  const DefaultStart: int := 1483228800000

  type Store = map<string, seq<Candle>>

  // ---------------------------------------------------------------------------
  // Catalogues

  /** The exchange lookup of the constructor: the name is lower-cased first. */
  function ResolveExchange(name: string): (r: Result<(string, nat), Error>)
    ensures r.Ok? <==> ToLower(name) in Exchanges
    ensures r.Ok? ==> r.value.0 == ToLower(name) && r.value.1 == Exchanges[r.value.0] && r.value.1 > 0
    ensures r.Err? ==> r.error == NotImplementedError(ToLower(name))
  {
    var key := ToLower(name);
    if key in Exchanges then Ok((key, Exchanges[key])) else Err(NotImplementedError(key))
  }

  /** Python's `lower()` folds the KELVIN SIGN to `k`, so a name spelt with it in
      place of the `K` selects kucoin. */
  lemma KelvinSelectsKucoin()
    ensures ResolveExchange([KelvinSign] + "ucoin") == Ok(("kucoin", 1500))
  {
    var name := [KelvinSign] + "ucoin";
    var low := ToLower(name);
    assert low[0] == LowerChar(KelvinSign) == 'k';
    forall i | 1 <= i < 6 ensures low[i] == name[i] {
      assert 'a' <= name[i] <= 'z';
    }
    assert low == "kucoin";
  }

  /** Spelling an exchange in capitals changes nothing. */
  lemma ResolveIgnoresCase(name: string)
    ensures ResolveExchange(name) == ResolveExchange(ToLower(name))
  {
    ToLowerIdempotent(name);
  }

  function CreateTimedelta(interval: string): (r: Result<nat, Error>)
    ensures r.Ok? <==> interval in Intervals
    ensures r.Ok? ==> r.value == Intervals[interval].timedeltaMs && r.value >= Minute
    ensures r.Err? ==> r.error == ValueError(interval)
  {
    if interval in Intervals then Ok(Intervals[interval].timedeltaMs) else Err(ValueError(interval))
  }

  /** The two durations of an interval agree everywhere except for "1M", whose grid
      step is 30 days while its pages are laid out with months of 30.436875 days. */
  lemma IntervalCatalogue()
    ensures forall name :: name in Intervals ==>
      Intervals[name].intervalMs > 0 &&
      (Intervals[name].timedeltaMs == Intervals[name].intervalMs <==> name != "1M")
    ensures Intervals["1M"] == IntervalInfo(2592000000, 2629746000)
  {
  }

  /** Width in milliseconds of one page: `limit_size_request * interval_ms`. */
  function PageSpan(limit: nat, interval: string): (s: int)
    requires limit > 0 && interval in Intervals
    ensures s >= limit
  {
    IntervalCatalogue();
    limit * Intervals[interval].intervalMs
  }

  /** The coin's every `/` becomes `-` (`str.replace` replaces all of them), so the
      file sits directly in the interval's directory. */
  function FileName(interval: string, coin: string): (p: string)
    ensures |p| == |interval| + |coin| + 5
    ensures p[..|interval| + 1] == interval + "/"
    ensures forall i :: |interval| < i < |p| ==> p[i] != '/'
  {
    interval + "/" + ReplaceAll(coin, '/', '-') + ".csv"
  }

  // ---------------------------------------------------------------------------
  // The target grid

  /** The values `create_intervals` yields: `start`, `start + delta`, ... while they
      do not pass `end`. */
  function Grid(start: int, end: int, delta: int): seq<int>
    requires delta > 0
    decreases if start <= end then end - start + 1 else 0
  {
    if start > end then [] else [start] + Grid(start + delta, end, delta)
  }

  method CreateIntervals(start: int, end: int, delta: int) returns (grid: seq<int>)
    requires delta > 0
    ensures grid == Grid(start, end, delta)
  {
    grid := [];
    var current := start;
    while current <= end
      invariant Grid(start, end, delta) == grid + Grid(current, end, delta)
      decreases end - current + 1
    {
      grid := grid + [current];
      current := current + delta;
    }
  }

  /** The grid is empty exactly when `start > end`; otherwise it is evenly spaced
      from `start`, strictly increasing, never passes `end`, and one more step
      would. */
  lemma {:induction false} GridShape(start: int, end: int, delta: int)
    requires delta > 0
    ensures var g := Grid(start, end, delta);
      (g == [] <==> start > end) &&
      (forall i :: 0 <= i < |g| ==> g[i] == start + i * delta && g[i] <= end) &&
      (forall i, j :: 0 <= i < j < |g| ==> g[i] < g[j]) &&
      (g != [] ==> g[|g| - 1] + delta > end)
    decreases if start <= end then end - start + 1 else 0
  {
    var g := Grid(start, end, delta);
    if start <= end {
      GridShape(start + delta, end, delta);
      var h := Grid(start + delta, end, delta);
      assert g == [start] + h;
      forall i | 0 < i < |g| ensures g[i] == start + i * delta {
        assert g[i] == h[i - 1];
      }
      forall i, j | 0 <= i < j < |g| ensures g[i] < g[j] {
        Paging.MulStrictMono(i, j, delta);
      }
    }
  }

  /** The last grid point is the greatest `start + k * delta` that is `<= end`. */
  lemma GridLast(start: int, end: int, delta: int)
    requires delta > 0 && start <= end
    ensures var g := Grid(start, end, delta);
      g != [] && g[|g| - 1] == start + ((end - start) / delta) * delta
  {
    var g := Grid(start, end, delta);
    GridShape(start, end, delta);
    var n := |g| - 1;
    assert n * delta <= end - start < n * delta + delta;
    Paging.DivIsQuotient(end - start, delta, n);
  }

  // ---------------------------------------------------------------------------
  // Reading a file back

  /** `groupby(index).first()`: one row per timestamp, in ascending order. */
  function GroupFirst(rows: seq<Candle>): (g: seq<Candle>)
    ensures StrictlyIncreasing(g) && StampSet(g) == StampSet(rows)
    ensures forall c :: c in g <==> c in KeepFirst(rows)
  {
    var kept := KeepFirst(rows);
    KeepFirstDistinct(rows);
    KeepFirstStamps(rows);
    SortDistinctIsStrict(kept);
    SortByTsStamps(kept);
    SortByTsFacts(kept);
    var g := SortByTs(kept);
    assert forall c :: c in g <==> c in kept by {
      forall c ensures c in g <==> c in kept {
        assert c in g <==> c in multiset(g);
        assert c in kept <==> c in multiset(kept);
      }
    }
    g
  }

  /** The row kept for each timestamp is the first one the file holds for it. */
  lemma GroupFirstPicksFirst(rows: seq<Candle>)
    ensures forall c :: c in GroupFirst(rows) ==>
      exists k :: 0 <= k < |rows| && rows[k] == c && IsFirstOf(rows, k)
    ensures forall k :: 0 <= k < |rows| && IsFirstOf(rows, k) ==> rows[k] in GroupFirst(rows)
  {
    forall c | c in GroupFirst(rows)
      ensures exists k :: 0 <= k < |rows| && rows[k] == c && IsFirstOf(rows, k)
    {
      KeepFirstOnlyFirst(rows, c);
    }
    forall k | 0 <= k < |rows| && IsFirstOf(rows, k) ensures rows[k] in GroupFirst(rows) {
      KeepFirstKeepsFirst(rows, k);
    }
  }

  /** The rows whose timestamp lies in `[lo, hi]` (`.loc[start_date:end_date]`). */
  function InRange(s: seq<Candle>, lo: int, hi: int): (r: seq<Candle>)
    ensures forall c :: c in r <==> c in s && lo <= c.ts <= hi
  {
    if s == [] then []
    else
      assert s == [s[0]] + s[1..];
      (if lo <= s[0].ts <= hi then [s[0]] else []) + InRange(s[1..], lo, hi)
  }

  lemma {:induction false} InRangeStrict(s: seq<Candle>, lo: int, hi: int)
    requires StrictlyIncreasing(s)
    ensures StrictlyIncreasing(InRange(s, lo, hi))
  {
    if s != [] {
      var rest := InRange(s[1..], lo, hi);
      InRangeStrict(s[1..], lo, hi);
      if lo <= s[0].ts <= hi {
        forall c | c in rest ensures s[0].ts < c.ts {
          var k :| 0 <= k < |s[1..]| && s[1..][k] == c;
          assert s[k + 1] == c;
        }
        ConsStrict(s[0], rest);
      }
    }
  }

  lemma ConsStrict(x: Candle, rest: seq<Candle>)
    requires StrictlyIncreasing(rest) && forall c :: c in rest ==> x.ts < c.ts
    ensures StrictlyIncreasing([x] + rest)
  {
    var r := [x] + rest;
    forall i, j | 0 <= i < j < |r| ensures r[i].ts < r[j].ts {
      assert r[j] == rest[j - 1] && r[j] in rest;
      if i > 0 {
        assert r[i] == rest[i - 1];
      }
    }
  }

  /** `.iloc[:-1]`: everything but the last row; nothing stays nothing. */
  function DropLast(s: seq<Candle>): (r: seq<Candle>)
    ensures s != [] ==> |r| == |s| - 1
    ensures r <= s
  {
    if s == [] then [] else s[..|s| - 1]
  }

  /** What `load_data` returns for the rows of an existing file. */
  function LoadRows(rows: seq<Candle>, lo: int, hi: int): seq<Candle>
  {
    DropLast(InRange(GroupFirst(rows), lo, hi))
  }

  /** `load_data` returns one row per timestamp, the first the file holds for it,
      ascending and within `[lo, hi]`, with the last of them dropped: a timestamp of
      the range is there exactly when a later one of the range is stored too. */
  lemma LoadRowsMeaning(rows: seq<Candle>, lo: int, hi: int)
    ensures var r := LoadRows(rows, lo, hi);
      StrictlyIncreasing(r) &&
      (forall c :: c in r ==>
        lo <= c.ts <= hi && exists k :: 0 <= k < |rows| && rows[k] == c && IsFirstOf(rows, k)) &&
      (forall t :: t in StampSet(rows) && lo <= t <= hi ==>
        (t in StampSet(r) <==> exists u :: u in StampSet(rows) && lo <= u <= hi && t < u))
  {
    LoadRowsFirsts(rows, lo, hi);
    var r := LoadRows(rows, lo, hi);
    forall t | t in StampSet(rows) && lo <= t <= hi
      ensures t in StampSet(r) <==> exists u :: u in StampSet(rows) && lo <= u <= hi && t < u
    {
      LoadedStamp(rows, lo, hi, t);
    }
  }

  lemma LoadRowsFirsts(rows: seq<Candle>, lo: int, hi: int)
    ensures var r := LoadRows(rows, lo, hi);
      StrictlyIncreasing(r) &&
      forall c :: c in r ==>
        lo <= c.ts <= hi && exists k :: 0 <= k < |rows| && rows[k] == c && IsFirstOf(rows, k)
  {
    var g := GroupFirst(rows);
    var w := InRange(g, lo, hi);
    InRangeStrict(g, lo, hi);
    GroupFirstPicksFirst(rows);
    var r := LoadRows(rows, lo, hi);
    assert r == DropLast(w);
    forall c | c in r ensures c in w {
      var k :| 0 <= k < |r| && r[k] == c;
      assert w[k] == c;
    }
  }

  lemma LoadedStamp(rows: seq<Candle>, lo: int, hi: int, t: int)
    requires t in StampSet(rows) && lo <= t <= hi
    ensures t in StampSet(LoadRows(rows, lo, hi)) <==>
      exists u :: u in StampSet(rows) && lo <= u <= hi && t < u
  {
    if t in StampSet(LoadRows(rows, lo, hi)) {
      LoadedHasLater(rows, lo, hi, t);
    }
    if exists u :: u in StampSet(rows) && lo <= u <= hi && t < u {
      var u :| u in StampSet(rows) && lo <= u <= hi && t < u;
      LaterMeansLoaded(rows, lo, hi, t, u);
    }
  }

  lemma LoadedHasLater(rows: seq<Candle>, lo: int, hi: int, t: int)
    requires t in StampSet(LoadRows(rows, lo, hi))
    ensures exists u :: u in StampSet(rows) && lo <= u <= hi && t < u
  {
    var g := GroupFirst(rows);
    var w := InRange(g, lo, hi);
    InRangeStrict(g, lo, hi);
    DropLastBelowLast(w, t);
    var last := w[|w| - 1];
    assert last in w;
    assert last.ts in StampSet(g);
  }

  /** Every timestamp left after dropping the last row of an ascending sequence is
      below that last row's. */
  lemma DropLastBelowLast(w: seq<Candle>, t: int)
    requires StrictlyIncreasing(w) && t in StampSet(DropLast(w))
    ensures w != [] && t < w[|w| - 1].ts
  {
    var r := DropLast(w);
    var d :| d in r && d.ts == t;
    var i :| 0 <= i < |r| && r[i] == d;
    assert w[i] == d;
  }

  lemma LaterMeansLoaded(rows: seq<Candle>, lo: int, hi: int, t: int, u: int)
    requires t in StampSet(rows) && u in StampSet(rows) && lo <= t < u <= hi
    ensures t in StampSet(LoadRows(rows, lo, hi))
  {
    var g := GroupFirst(rows);
    InRangeStrict(g, lo, hi);
    InRangeStamp(g, lo, hi, t);
    InRangeStamp(g, lo, hi, u);
    LaterKept(InRange(g, lo, hi), t, u);
  }

  lemma InRangeStamp(s: seq<Candle>, lo: int, hi: int, t: int)
    requires t in StampSet(s) && lo <= t <= hi
    ensures t in StampSet(InRange(s, lo, hi))
  {
    var c :| c in s && c.ts == t;
    assert c in InRange(s, lo, hi);
  }

  /** In an ascending sequence a stamp with a later one after it survives
      dropping the last row. */
  lemma LaterKept(w: seq<Candle>, t: int, u: int)
    requires StrictlyIncreasing(w) && t in StampSet(w) && u in StampSet(w) && t < u
    ensures t in StampSet(DropLast(w))
  {
    var c :| c in w && c.ts == t;
    var e :| e in w && e.ts == u;
    var k :| 0 <= k < |w| && w[k] == c;
    var j :| 0 <= j < |w| && w[j] == e;
    assert k < j;
    assert DropLast(w)[k] == c;
  }

  // ---------------------------------------------------------------------------
  // Deciding what is missing

  /** What `is_data_missing` answers: the file is current, or downloading must
      resume from a timestamp. */
  datatype Missing = UpToDate | ResumeFrom(ts: int)

  predicate IsGreatest(s: set<int>, m: int)
  {
    m in s && forall u :: u in s ==> u <= m
  }

  /** `stored` is the file's rows, or None when there is no file. */
  function IsDataMissing(stored: Option<seq<Candle>>, lastDt: int): (r: Result<Missing, Error>)
    ensures stored.None? ==> r == Ok(ResumeFrom(DefaultStart))
    ensures stored == Some([]) ==> r == Err(IndexError)
    ensures stored.Some? && r.Ok? && r.value.ResumeFrom? ==>
      r.value.ts in StampSet(stored.value) && r.value.ts < lastDt
  {
    match stored
    case None => Ok(ResumeFrom(DefaultStart))
    case Some(rows) =>
      var index := GroupFirst(rows);
      if index == [] then Err(IndexError)
      else if Last(index).ts >= lastDt then Ok(UpToDate)
      else if |index| < 2 then Err(IndexError)
      else
        assert index[|index| - 2] in index;
        Ok(ResumeFrom(index[|index| - 2].ts))
  }

  /** With `m` the greatest stored timestamp: the file is current when `m` reaches
      `lastDt`; otherwise the download resumes from the second greatest stored
      timestamp, not from `m`, and a file holding only `m` raises `IndexError`. */
  lemma IsDataMissingMeaning(rows: seq<Candle>, lastDt: int, m: int)
    requires IsGreatest(StampSet(rows), m)
    ensures var r := IsDataMissing(Some(rows), lastDt);
      (m >= lastDt ==> r == Ok(UpToDate)) &&
      (m < lastDt && StampSet(rows) == {m} ==> r == Err(IndexError)) &&
      (m < lastDt && StampSet(rows) != {m} ==>
        r.Ok? && r.value.ResumeFrom? && IsGreatest(StampSet(rows) - {m}, r.value.ts))
  {
    var g := GroupFirst(rows);
    var c :| c in g && c.ts == m;
    TopOfStrict(g);
  }

  /** In a strictly increasing series the last row carries the greatest timestamp
      and the one before it the second greatest. */
  lemma TopOfStrict(g: seq<Candle>)
    requires StrictlyIncreasing(g) && g != []
    ensures IsGreatest(StampSet(g), Last(g).ts)
    ensures |g| == 1 ==> StampSet(g) == {Last(g).ts}
    ensures |g| >= 2 ==> IsGreatest(StampSet(g) - {Last(g).ts}, g[|g| - 2].ts)
  {
    var n := |g|;
    assert g[n - 1] in g;
    forall u | u in StampSet(g) ensures u <= g[n - 1].ts {
      var d :| d in g && d.ts == u;
      var k :| 0 <= k < n && g[k] == d;
      assert k == n - 1 || g[k].ts < g[n - 1].ts;
    }
    if n == 1 {
      forall u | u in StampSet(g) ensures u == g[0].ts {
        var d :| d in g && d.ts == u;
      }
    } else {
      assert g[n - 2] in g;
      var top := StampSet(g) - {g[n - 1].ts};
      forall u | u in top ensures u <= g[n - 2].ts {
        var d :| d in g && d.ts == u;
        var k :| 0 <= k < n && g[k] == d;
        assert k != n - 1;
        assert k == n - 2 || g[k].ts < g[n - 2].ts;
      }
    }
  }

  // ---------------------------------------------------------------------------
  // Downloading the missing pages

  /** `download_tf`: attempt 1, and attempt 2 after a failure; `TooManyError` when
      both fail. */
  method DownloadTf(fetch: Oracle, coin: string, interval: string, since: int)
    returns (r: Result<seq<Candle>, Error>, attempts: nat)
    ensures 1 <= attempts <= 2
    ensures var first := FirstSuccess(fetch, coin, interval, since, 1, 2);
      (first.Some? ==> r == Ok(first.value.0) && attempts == first.value.1) &&
      (first.None? ==> r == Err(TooManyError) && attempts == 2)
  {
    var tests := 1;
    while tests < 3
      invariant 1 <= tests <= 3
      invariant FirstSuccess(fetch, coin, interval, since, 1, 2)
             == FirstSuccess(fetch, coin, interval, since, tests, 2)
      decreases 3 - tests
    {
      match fetch(coin, interval, since, tests) {
        case Page(rows) =>
          return Ok(rows), tests;
        case Failure =>
          tests := tests + 1;
      }
    }
    // the second failure has brought `tests` to 3
    return Err(TooManyError), 2;
  }

  /** What the `download_tf` task of one window ends with. */
  function TfOutcome(fetch: Oracle, coin: string, interval: string, since: int): Result<seq<Candle>, Error>
  {
    var first := FirstSuccess(fetch, coin, interval, since, 1, 2);
    if first.Some? then Ok(first.value.0) else Err(TooManyError)
  }

  /** `asyncio.gather` over the tasks: every page, in task order, or the exception
      of a failed task. */
  function GatherOutcomes(tasks: seq<Result<seq<Candle>, Error>>): Result<seq<seq<Candle>>, Error>
  {
    if tasks == [] then Ok([])
    else
      var before := GatherOutcomes(tasks[..|tasks| - 1]);
      var last := tasks[|tasks| - 1];
      if before.Err? then before
      else if last.Err? then Err(last.error)
      else Ok(before.value + [last.value])
  }

  /** The gathered pages are there exactly when no task failed, and then page `i`
      is the result of task `i`; otherwise the exception is one a task raised. */
  lemma {:induction false} GatherMeaning(tasks: seq<Result<seq<Candle>, Error>>)
    ensures var r := GatherOutcomes(tasks);
      (r.Ok? <==> forall i :: 0 <= i < |tasks| ==> tasks[i].Ok?) &&
      (r.Ok? ==> |r.value| == |tasks| && forall i :: 0 <= i < |tasks| ==> r.value[i] == tasks[i].value) &&
      (r.Err? ==> exists i :: 0 <= i < |tasks| && tasks[i] == Err(r.error))
  {
    if tasks != [] {
      var init := tasks[..|tasks| - 1];
      GatherMeaning(init);
      assert forall i :: 0 <= i < |init| ==> tasks[i] == init[i];
    }
  }

  /** The tasks of the windows `starts`, gathered. */
  function Gather(fetch: Oracle, coin: string, interval: string, starts: seq<int>): Result<seq<seq<Candle>>, Error>
  {
    GatherOutcomes(seq(|starts|, i requires 0 <= i < |starts| => TfOutcome(fetch, coin, interval, starts[i])))
  }

  /** Downloading succeeds exactly when every window has a successful attempt among
      its two; page `i` is then window `i`'s first successful response, and the
      failure otherwise is `TooManyError`. */
  lemma GatherWindows(fetch: Oracle, coin: string, interval: string, starts: seq<int>)
    ensures var r := Gather(fetch, coin, interval, starts);
      (r.Ok? <==> forall i :: 0 <= i < |starts| ==> FirstSuccess(fetch, coin, interval, starts[i], 1, 2).Some?) &&
      (r.Ok? ==> |r.value| == |starts| && forall i :: 0 <= i < |starts| ==>
        r.value[i] == FirstSuccess(fetch, coin, interval, starts[i], 1, 2).value.0) &&
      (r.Err? ==> r.error == TooManyError)
  {
    var tasks := seq(|starts|, i requires 0 <= i < |starts| => TfOutcome(fetch, coin, interval, starts[i]));
    GatherMeaning(tasks);
    assert forall i :: 0 <= i < |starts| ==>
      (tasks[i].Ok? <==> FirstSuccess(fetch, coin, interval, starts[i], 1, 2).Some?);
    assert forall i :: 0 <= i < |starts| ==> tasks[i].Err? ==> tasks[i].error == TooManyError;
  }

  /** The window loop of `download_data`: one `download_tf` task per window start,
      the next start being `min(current + step, end)`, until that reaches `end`. */
  method DownloadWindows(fetch: Oracle, coin: string, interval: string, resume: int, end: int, step: int)
    returns (starts: seq<int>, tasks: seq<Result<seq<Candle>, Error>>)
    requires step > 0
    ensures starts == Paging.Windows(resume, end, step)
    ensures |tasks| == |starts| && forall i :: 0 <= i < |starts| ==> tasks[i] == TfOutcome(fetch, coin, interval, starts[i])
  {
    starts, tasks := [], [];
    var current := resume;
    while true
      invariant Paging.Windows(resume, end, step) == starts + Paging.Windows(current, end, step)
      invariant |tasks| == |starts| && forall i :: 0 <= i < |starts| ==> tasks[i] == TfOutcome(fetch, coin, interval, starts[i])
      decreases end - current
    {
      var page, _ := DownloadTf(fetch, coin, interval, current);
      tasks := tasks + [page];
      starts := starts + [current];
      var next := if current + step <= end then current + step else end;
      if next >= end {
        Paging.WindowsLast(current, end, step);
        break;
      }
      Paging.WindowsNext(current, end, step);
      current := next;
    }
  }

  // ---------------------------------------------------------------------------
  // Merging and writing

  /** The results that hold rows (`if i:`); leaving the empty ones out changes
      nothing in the concatenation. */
  function NonEmpty(pages: seq<seq<Candle>>): (r: seq<seq<Candle>>)
    ensures forall p :: p in r <==> p in pages && p != []
    ensures Concat(r) == Concat(pages)
  {
    if pages == [] then []
    else
      var rest := NonEmpty(pages[1..]);
      assert forall p :: p in pages <==> p == pages[0] || p in pages[1..] by {
        assert pages == [pages[0]] + pages[1..];
      }
      if pages[0] == [] then rest
      else
        assert ([pages[0]] + rest)[1..] == rest;
        [pages[0]] + rest
  }

  /** `pd.concat` of the pages then `~index.duplicated(keep='first')`: in window
      order, unsorted, each timestamp once, carried by its first row, the rows kept
      in the order their timestamps first appear. */
  function Merge(pages: seq<seq<Candle>>): (m: seq<Candle>)
    ensures DistinctStamps(m) && StampSet(m) == StampSet(Concat(pages))
    ensures Subseq(m, Concat(pages))
    ensures forall k :: 0 <= k < |Concat(pages)| && IsFirstOf(Concat(pages), k) ==> Concat(pages)[k] in m
    ensures m == [] <==> Concat(pages) == []
    ensures Concat(pages) != [] ==> m[0] == Concat(pages)[0]
    ensures forall i :: 0 <= i < |m| ==>
      FirstPos(Concat(pages), m[i].ts) < |Concat(pages)| && Concat(pages)[FirstPos(Concat(pages), m[i].ts)] == m[i]
    ensures forall i, j :: 0 <= i < j < |m| ==> FirstPos(Concat(pages), m[i].ts) < FirstPos(Concat(pages), m[j].ts)
  {
    var all := Concat(pages);
    KeepFirstAtFirstPos(all);
    KeepFirstOrder(all);
    KeepFirstDistinct(all);
    KeepFirstStamps(all);
    KeepFirstSubseq(all);
    forall k | 0 <= k < |all| && IsFirstOf(all, k) ensures all[k] in KeepFirst(all) {
      KeepFirstKeepsFirst(all, k);
    }
    assert all != [] ==> KeepFirst(all) != [] && KeepFirst(all)[0] == all[0] by {
      if all != [] {
        KeepFirstHead(all);
      }
    }
    KeepFirst(all)
  }

  /** Rows after the first (`.iloc[1:]`). */
  function Tail(s: seq<Candle>): seq<Candle>
  {
    if s == [] then [] else s[1..]
  }

  /** The new content of the file: an existing file gets the merged rows but the
      first appended, a new file all of them. */
  function Commit(stored: Option<seq<Candle>>, merged: seq<Candle>): (r: seq<Candle>)
    ensures stored.Some? ==> stored.value <= r && r[|stored.value|..] == Tail(merged)
    ensures stored.None? ==> r == merged
  {
    match stored
    case None => merged
    case Some(rows) => rows + Tail(merged)
  }

  /** Appending never changes which row a reader picks for a timestamp the file
      already held: the old rows win over re-downloaded ones. */
  lemma AppendKeepsStoredRows(rows: seq<Candle>, merged: seq<Candle>)
    ensures KeepFirst(rows) <= KeepFirst(Commit(Some(rows), merged))
  {
    KeepFirstPrefix(rows, Tail(merged));
  }

  /** Skipping the first merged row loses nothing when its timestamp is already in
      the file, as when the download resumed from a stored timestamp. */
  lemma SkippedRowWasStored(rows: seq<Candle>, merged: seq<Candle>)
    requires merged != [] && merged[0].ts in StampSet(rows)
    ensures StampSet(Commit(Some(rows), merged)) == StampSet(rows) + StampSet(merged)
  {
    StampSetConcat(rows, merged[1..]);
    StampSetConcat([merged[0]], merged[1..]);
    assert [merged[0]] + merged[1..] == merged;
  }

  /** Skipping the first merged row loses its timestamp when the file did not hold
      it, as when the exchange's first non-empty page starts after the resume
      point: that candle never reaches the file. */
  lemma SkippedRowLost(rows: seq<Candle>, merged: seq<Candle>)
    requires merged != [] && merged[0].ts !in StampSet(rows) && DistinctStamps(merged)
    ensures merged[0].ts !in StampSet(Commit(Some(rows), merged))
  {
    StampSetConcat(rows, merged[1..]);
    forall c | c in merged[1..] ensures c.ts != merged[0].ts {
      var k :| 0 <= k < |merged[1..]| && merged[1..][k] == c;
      assert merged[k + 1] == c;
    }
  }

  /** Resuming from the second greatest timestamp downloads the greatest one again;
      when the exchange returns it after the skipped first row, the file then holds
      that timestamp twice. */
  lemma AppendDuplicatesStamp(rows: seq<Candle>, merged: seq<Candle>)
    requires |merged| >= 2 && merged[1].ts in StampSet(rows)
    ensures !DistinctStamps(Commit(Some(rows), merged))
  {
    var f := Commit(Some(rows), merged);
    var c :| c in rows && c.ts == merged[1].ts;
    var k :| 0 <= k < |rows| && rows[k] == c;
    assert f[k] == c && f[|rows|] == merged[1];
  }

  // ---------------------------------------------------------------------------
  // The synchronisation, as functions of the store

  /** Files present before are present after, with their old content as a prefix. */
  ghost predicate Grows(before: Store, after: Store)
  {
    forall p :: p in before ==> p in after && before[p] <= after[p]
  }

  /** Only files named in `paths` may appear or change. */
  ghost predicate OnlyTouches(before: Store, after: Store, paths: set<string>)
  {
    forall p :: p !in paths ==> (p in before <==> p in after) && (p in before ==> after[p] == before[p])
  }

  lemma FrameTrans(a: Store, b: Store, c: Store, s1: set<string>, s2: set<string>, s: set<string>)
    requires Grows(a, b) && Grows(b, c) && OnlyTouches(a, b, s1) && OnlyTouches(b, c, s2)
    requires s1 <= s && s2 <= s
    ensures Grows(a, c) && OnlyTouches(a, c, s)
  {
  }

  /** One coin of one interval: find what is missing, download it, append it. */
  function SyncCoin(files: Store, fetch: Oracle, limit: nat, interval: string, coin: string, lastDt: int)
    : (r: (Result<(), Error>, Store))
    requires limit > 0 && interval in Intervals
    ensures Grows(files, r.1) && OnlyTouches(files, r.1, {FileName(interval, coin)})
    ensures var path := FileName(interval, coin);
      var stored := if path in files then Some(files[path]) else None;
      var missing := IsDataMissing(stored, lastDt);
      (missing.Err? ==> r == (Err(missing.error), files)) &&
      (missing == Ok(UpToDate) ==> r == (Ok(()), files)) &&
      (missing.Ok? && missing.value.ResumeFrom? ==>
        var g := Gather(fetch, coin, interval, Paging.Windows(missing.value.ts, lastDt, PageSpan(limit, interval)));
        (g.Err? ==> r == (Err(TooManyError), files)) &&
        (g.Ok? && NonEmpty(g.value) == [] ==> r == (Ok(()), files)) &&
        (g.Ok? && NonEmpty(g.value) != [] ==>
          r == (Ok(()), files[path := Commit(stored, Merge(NonEmpty(g.value)))])))
  {
    var path := FileName(interval, coin);
    var stored := if path in files then Some(files[path]) else None;
    match IsDataMissing(stored, lastDt)
    case Err(e) => (Err(e), files)
    case Ok(UpToDate) => (Ok(()), files)
    case Ok(ResumeFrom(resume)) =>
      var starts := Paging.Windows(resume, lastDt, PageSpan(limit, interval));
      GatherWindows(fetch, coin, interval, starts);
      match Gather(fetch, coin, interval, starts)
      case Err(e) => (Err(e), files)
      case Ok(pages) =>
        var nonEmpty := NonEmpty(pages);
        if nonEmpty == [] then (Ok(()), files)
        else (Ok(()), files[path := Commit(stored, Merge(nonEmpty))])
  }

  function CoinFiles(interval: string, coins: seq<string>): set<string>
  {
    set c | c in coins :: FileName(interval, c)
  }

  /** The coins in order for one interval; the first exception ends the run. */
  function SyncCoins(files: Store, fetch: Oracle, limit: nat, interval: string, coins: seq<string>, lastDt: int)
    : (r: (Result<(), Error>, Store))
    requires limit > 0 && interval in Intervals
    ensures Grows(files, r.1) && OnlyTouches(files, r.1, CoinFiles(interval, coins))
    decreases |coins|
  {
    if coins == [] then (Ok(()), files)
    else
      var first := SyncCoin(files, fetch, limit, interval, coins[0], lastDt);
      if first.0.Err? then first
      else
        var rest := SyncCoins(first.1, fetch, limit, interval, coins[1..], lastDt);
        assert CoinFiles(interval, coins[1..]) <= CoinFiles(interval, coins) by {
          forall p | p in CoinFiles(interval, coins[1..]) ensures p in CoinFiles(interval, coins) {
            var c :| c in coins[1..] && p == FileName(interval, c);
            assert c in coins;
          }
        }
        FrameTrans(files, first.1, rest.1, {FileName(interval, coins[0])},
                   CoinFiles(interval, coins[1..]), CoinFiles(interval, coins));
        rest
  }

  /** One interval: its grid must not be empty, and its last point is where every
      coin's download ends. */
  function SyncInterval(files: Store, fetch: Oracle, limit: nat, coins: seq<string>, interval: string,
                        start: int, end: int): (r: (Result<(), Error>, Store))
    requires limit > 0
    ensures Grows(files, r.1) && OnlyTouches(files, r.1, CoinFiles(interval, coins))
  {
    match CreateTimedelta(interval)
    case Err(e) => (Err(e), files)
    case Ok(delta) =>
      var grid := Grid(start, end, delta);
      if grid == [] then (Err(IndexError), files)
      else SyncCoins(files, fetch, limit, interval, coins, grid[|grid| - 1])
  }

  function AllFiles(intervals: seq<string>, coins: seq<string>): set<string>
  {
    set i, c | i in intervals && c in coins :: FileName(i, c)
  }

  /** `download_data`: the intervals in order, each over every coin; the first
      exception ends the run. Whatever happens, files only grow at their end, and
      no file other than those of the given intervals and coins is touched. */
  function SyncIntervals(files: Store, fetch: Oracle, limit: nat, coins: seq<string>, intervals: seq<string>,
                         start: int, end: int): (r: (Result<(), Error>, Store))
    requires limit > 0
    ensures Grows(files, r.1) && OnlyTouches(files, r.1, AllFiles(intervals, coins))
    decreases |intervals|
  {
    if intervals == [] then (Ok(()), files)
    else
      var first := SyncInterval(files, fetch, limit, coins, intervals[0], start, end);
      if first.0.Err? then
        assert CoinFiles(intervals[0], coins) <= AllFiles(intervals, coins);
        first
      else
        var rest := SyncIntervals(first.1, fetch, limit, coins, intervals[1..], start, end);
        assert CoinFiles(intervals[0], coins) <= AllFiles(intervals, coins);
        assert AllFiles(intervals[1..], coins) <= AllFiles(intervals, coins) by {
          forall p | p in AllFiles(intervals[1..], coins) ensures p in AllFiles(intervals, coins) {
            var i, c :| i in intervals[1..] && c in coins && p == FileName(i, c);
            assert i in intervals;
          }
        }
        FrameTrans(files, first.1, rest.1, CoinFiles(intervals[0], coins),
                   AllFiles(intervals[1..], coins), AllFiles(intervals, coins));
        rest
  }

  /** A file whose greatest timestamp already reaches the end of the grid is left
      as it is. */
  lemma CurrentFileUntouched(files: Store, fetch: Oracle, limit: nat, interval: string, coin: string,
                             lastDt: int, m: int)
    requires limit > 0 && interval in Intervals
    requires FileName(interval, coin) in files
    requires IsGreatest(StampSet(files[FileName(interval, coin)]), m) && m >= lastDt
    ensures SyncCoin(files, fetch, limit, interval, coin, lastDt) == (Ok(()), files)
  {
    IsDataMissingMeaning(files[FileName(interval, coin)], lastDt, m);
  }

  // ---------------------------------------------------------------------------
  // The object

  class ExchangeDataManager {

    const exchangeName: string
    const limitSizeRequest: nat

    /** The CSV files under this exchange's directory, by path below it. */
    var files: Store

    predicate Valid()
    {
      exchangeName in Exchanges && limitSizeRequest == Exchanges[exchangeName] && limitSizeRequest > 0
    }

    /** `__init__`: an unsupported exchange raises `NotImplementedError`, which
        `ResolveExchange` reports. */
    constructor (name: string, existing: Store)
      requires ResolveExchange(name).Ok?
      ensures Valid() && exchangeName == ToLower(name) && files == existing
    {
      var found := ResolveExchange(name).value;
      exchangeName := found.0;
      limitSizeRequest := found.1;
      files := existing;
    }

    /** `load_data` for one coin and interval over `[lo, hi]`. */
    function LoadData(coin: string, interval: string, lo: int, hi: int): (r: Result<seq<Candle>, Error>)
      reads this
      ensures r.Err? <==> FileName(interval, coin) !in files
      ensures r.Err? ==> r.error == FileNotFoundError(FileName(interval, coin))
      ensures r.Ok? ==> r.value == LoadRows(files[FileName(interval, coin)], lo, hi)
    {
      var path := FileName(interval, coin);
      if path !in files then Err(FileNotFoundError(path)) else Ok(LoadRows(files[path], lo, hi))
    }

    /** The body of the coin loop of `download_data`. */
    method Synchronise(fetch: Oracle, interval: string, coin: string, lastDt: int) returns (r: Result<(), Error>)
      requires Valid() && interval in Intervals
      modifies this
      ensures (r, files) == SyncCoin(old(files), fetch, limitSizeRequest, interval, coin, lastDt)
    {
      var path := FileName(interval, coin);
      var stored := if path in files then Some(files[path]) else None;
      var missing := IsDataMissing(stored, lastDt);
      if missing.Err? {
        return Err(missing.error);
      }
      match missing.value {
        case UpToDate =>
          return Ok(());
        case ResumeFrom(resume) =>
          var starts, tasks := DownloadWindows(fetch, coin, interval, resume, lastDt,
                                               PageSpan(limitSizeRequest, interval));
          assert tasks == seq(|starts|, i requires 0 <= i < |starts| => TfOutcome(fetch, coin, interval, starts[i]));
          var pages := GatherOutcomes(tasks);
          if pages.Err? {
            return Err(pages.error);
          }
          var nonEmpty := NonEmpty(pages.value);
          if nonEmpty != [] {
            files := files[path := Commit(stored, Merge(nonEmpty))];
          }
          return Ok(());
      }
    }

    /** `download_data` over `[start, end]` (milliseconds). */
    method DownloadData(fetch: Oracle, coins: seq<string>, intervals: seq<string>, start: int, end: int)
      returns (r: Result<(), Error>)
      requires Valid()
      modifies this
      ensures (r, files) == SyncIntervals(old(files), fetch, limitSizeRequest, coins, intervals, start, end)
    {
      var i := 0;
      while i < |intervals|
        invariant 0 <= i <= |intervals|
        invariant SyncIntervals(old(files), fetch, limitSizeRequest, coins, intervals, start, end)
               == SyncIntervals(files, fetch, limitSizeRequest, coins, intervals[i..], start, end)
      {
        var interval := intervals[i];
        assert intervals[i..][0] == interval && intervals[i..][1..] == intervals[i + 1..];
        var delta := CreateTimedelta(interval);
        if delta.Err? {
          return Err(delta.error);
        }
        var grid := CreateIntervals(start, end, delta.value);
        if grid == [] {
          return Err(IndexError);
        }
        var lastDt := grid[|grid| - 1];
        ghost var before := files;
        var j := 0;
        while j < |coins|
          invariant 0 <= j <= |coins|
          invariant SyncCoins(before, fetch, limitSizeRequest, interval, coins, lastDt)
                 == SyncCoins(files, fetch, limitSizeRequest, interval, coins[j..], lastDt)
        {
          assert coins[j..][0] == coins[j] && coins[j..][1..] == coins[j + 1..];
          var res := Synchronise(fetch, interval, coins[j], lastDt);
          if res.Err? {
            return res;
          }
          j := j + 1;
        }
        i := i + 1;
      }
      return Ok(());
    }
  }
}

=== FILE: download_data.dfy ===
/** The Node bulk downloader: for every timeframe and pair, cut `[start date, now)`
    into pages, fetch each page with up to three attempts, sort the rows, drop rows
    whose timestamp repeats the previous one, and write them to a CSV file named
    after the exchange, the timeframe and the pair. */
module DownloadData {

  import opened Wrappers
  import opened Candles
  import opened Text
  import Paging
  import opened JsDate

  // ---------------------------------------------------------------------------
  // Dates

  /** `date_to_timestamp`: a "day-month-year" string read as midnight UTC of that
      day through `Date.UTC`, or None where JavaScript produces NaN. Fields beyond
      the third are ignored. */
  function DateToTimestamp(s: string): (r: Option<int>)
    ensures r.Some? ==> r.value % MsPerDay == 0 && -MaxTime <= r.value <= MaxTime
  {
    var parts := Split(s, '-');
    if |parts| < 3 then None
    else
      var d, m, y := ToNumber(parts[0]), ToNumber(parts[1]), ToNumber(parts[2]);
      if d.None? || m.None? || y.None? then None else DateUtc(y.value, m.value - 1, d.value)
  }

  /** The "day-month-year" part of `timestamp_to_date`, unpadded, month 1-based. */
  function DateOf(f: UtcFields): string
  {
    IntToString(f.day) + "-" + IntToString(f.month) + "-" + IntToString(f.year)
  }

  /** `timestamp_to_date`: "D-M-Y H:M" of a time value in UTC; every field reads NaN
      for a time value outside the range of `Date`. */
  function TimestampToDate(t: int): string
  {
    if t < -MaxTime || t > MaxTime then "NaN-NaN-NaN NaN:NaN"
    else
      var f := Fields(t);
      DateOf(f) + " " + IntToString(f.hours) + ":" + IntToString(f.minutes)
  }

  /** The year `Date.UTC` actually uses: 0 to 99 stand for 1900 to 1999. */
  function FullYear(y: int): int
  {
    if 0 <= y <= 99 then 1900 + y else y
  }

  lemma DigitsHaveNoDash(s: string)
    requires NumberForm(s)
    ensures '-' !in s
  {
    forall i | 0 <= i < |s| ensures s[i] != '-' {
      if !AllDigits(s) && i > 0 {
        assert s[i] == s[1..][i - 1];
      }
    }
  }

  /** Three fields that `Number` reads as `d`, `m` and `y`, joined by dashes, read
      as `Date.UTC(y, m - 1, d)`. */
  lemma ParseDate(ds: string, ms: string, ys: string, d: int, m: int, y: int)
    requires ToNumber(ds) == Some(d) && ToNumber(ms) == Some(m) && ToNumber(ys) == Some(y)
    ensures DateToTimestamp(ds + "-" + ms + "-" + ys) == DateUtc(y, m - 1, d)
  {
    SplitDate(ds, ms, ys);
  }

  lemma SplitDate(ds: string, ms: string, ys: string)
    requires NumberForm(ds) && NumberForm(ms) && NumberForm(ys)
    ensures Split(ds + "-" + ms + "-" + ys, '-') == [ds, ms, ys]
  {
    DigitsHaveNoDash(ds);
    DigitsHaveNoDash(ms);
    DigitsHaveNoDash(ys);
    var s := ds + "-" + ms + "-" + ys;
    assert s == ds + ['-'] + (ms + ['-'] + ys);
    SplitAtSep(ds, '-', ms + ['-'] + ys);
    SplitAtSep(ms, '-', ys);
    SplitNoSep(ys, '-');
  }

  /** A day, month or year written with a leading `+` reads as the same date,
      because `Number` accepts that sign: "+1-06-2017" is the first of June 2017. */
  lemma PlusSignedDate(ds: string, ms: string, ys: string)
    requires ds != "" && AllDigits(ds) && NumberForm(ms) && NumberForm(ys)
    ensures DateToTimestamp("+" + ds + "-" + ms + "-" + ys) == DateToTimestamp(ds + "-" + ms + "-" + ys)
  {
    ToNumberPlus(ds);
    var d, m, y := ToNumber(ds).value, ToNumber(ms).value, ToNumber(ys).value;
    ParseDate("+" + ds, ms, ys, d, m, y);
    ParseDate(ds, ms, ys, d, m, y);
  }

  /** The first of June 2017, the start date the downloader ships with. */
  lemma ShippedStartDate()
    ensures DateToTimestamp("01-06-2017") == Some(1496275200000)
  {
    ShippedStartFields();
    assert "01-06-2017" == "01" + "-" + "06" + "-" + "2017";
    ParseDate("01", "06", "2017", 1, 6, 2017);
    DateUtcOfCalendarDate(2017, 6, 1);
    assert DayNumber(2017, 6, 1) == 17318;
  }

  lemma ShippedStartFields()
    ensures ToNumber("01") == Some(1) && ToNumber("06") == Some(6) && ToNumber("2017") == Some(2017)
  {
    LeadingZero('1');
    LeadingZero('6');
    assert "0" + ['1'] == "01" && "0" + ['6'] == "06";
    ShippedYear();
  }

  lemma LeadingZero(c: char)
    requires IsDigit(c)
    ensures ToNumber("0" + [c]) == Some(c as int - '0' as int)
  {
    ParseDigitsSnoc([], '0');
    ParseDigitsSnoc([] + ['0'], c);
    assert [] + ['0'] + [c] == "0" + [c];
  }

  lemma ShippedYear()
    ensures ToNumber("2017") == Some(2017)
  {
    var s2 := [] + ['2'];
    var s20 := s2 + ['0'];
    var s201 := s20 + ['1'];
    ParseDigitsSnoc([], '2');
    ParseDigitsSnoc(s2, '0');
    ParseDigitsSnoc(s20, '1');
    ParseDigitsSnoc(s201, '7');
    assert s201 + ['7'] == "2017";
  }

  /** A calendar date whose fields `Number` reads as `d`, `m` and `y` (leading zeros
      allowed) becomes midnight UTC of that day, and `timestamp_to_date` renders it
      back without padding, with a year below 100 read as 19xx, at 0:0. */
  lemma DateRoundTrip(ds: string, ms: string, ys: string, d: int, m: int, y: int)
    requires ToNumber(ds) == Some(d) && ToNumber(ms) == Some(m) && ToNumber(ys) == Some(y)
    requires 1 <= m <= 12 && 0 <= y <= 275759 && 1 <= d <= DaysInMonth(FullYear(y), m)
    ensures var t := DayNumber(FullYear(y), m, d) * MsPerDay;
      DateToTimestamp(ds + "-" + ms + "-" + ys) == Some(t) &&
      TimestampToDate(t) == NatToString(d) + "-" + NatToString(m) + "-" + NatToString(FullYear(y)) + " 0:0"
  {
    ParseDate(ds, ms, ys, d, m, y);
    DateUtcOfCalendarDate(y, m, d);
    RenderMidnight(FullYear(y), m, d);
  }

  /** `Date.UTC` of a calendar date is midnight UTC of that day. */
  lemma DateUtcOfCalendarDate(y: int, m: int, d: int)
    requires 1 <= m <= 12 && 0 <= y <= 275759 && 1 <= d <= DaysInMonth(FullYear(y), m)
    ensures DateUtc(y, m - 1, d)
         == Some(DayNumber(FullYear(y), m, d) * MsPerDay)
  {
    assert (m - 1) / 12 == 0 && (m - 1) % 12 == m - 1;
    MidnightInRange(FullYear(y), m, d);
  }

  /** The midnight of a day of the years 0 to 275759 is a valid time value. */
  lemma MidnightInRange(year: int, m: int, d: int)
    requires 0 <= year <= 275759 && 1 <= m <= 12 && 1 <= d <= DaysInMonth(year, m)
    ensures -MaxTime <= DayNumber(year, m, d) * MsPerDay <= MaxTime
  {
    var n := DayNumber(year, m, d);
    DaysBeforeMonthBounds(year, m);
    DayFromYearMono(year, 275760);
    if year > 0 {
      DayFromYearMono(0, year);
    }
    assert -100000000 < n < 100000000;
  }

  lemma RenderMidnight(year: int, m: int, d: int)
    requires 0 <= year <= 275759 && 1 <= m <= 12 && 1 <= d <= DaysInMonth(year, m)
    ensures TimestampToDate(DayNumber(year, m, d) * MsPerDay) == NatToString(d) + "-" + NatToString(m) + "-" + NatToString(year) + " 0:0"
  {
    MidnightInRange(year, m, d);
    FieldsOfMidnight(year, m, d);
  }

  /** The date part of `timestamp_to_date` reads back, through `date_to_timestamp`,
      as midnight of the same day: the two functions are inverse on days from the
      epoch on. */
  lemma DatePartRoundTrip(t: int)
    requires 0 <= t <= MaxTime
    ensures var s := TimestampToDate(t);
      var date := DateOf(Fields(t));
      |date| < |s| && s[..|date|] == date &&
      DateToTimestamp(date) == Some(t - t % MsPerDay)
  {
    var f := Fields(t);
    var date := DateOf(f);
    var rest := " " + IntToString(f.hours) + ":" + IntToString(f.minutes);
    assert TimestampToDate(t) == date + rest;
    assert (date + rest)[..|date|] == date;
    DateOfReadsBack(t);
  }

  lemma DateOfReadsBack(t: int)
    requires 0 <= t <= MaxTime
    ensures DateToTimestamp(DateOf(Fields(t))) == Some(t - t % MsPerDay)
  {
    var f := Fields(t);
    YearOfNonNegative(t);
    ToNumberOfNat(f.day);
    ToNumberOfNat(f.month);
    ToNumberOfNat(f.year);
    ParseDate(NatToString(f.day), NatToString(f.month), NatToString(f.year), f.day, f.month, f.year);
    DateUtcOfDay(f.year, f.month, f.day, t);
  }

  /** `Date.UTC` of the date of day number `t / MsPerDay`, past the two-digit
      years, is the midnight that starts that day. */
  lemma DateUtcOfDay(y: int, m: int, d: int, t: int)
    requires y > 99 && 1 <= m <= 12 && 0 <= t <= MaxTime && DayNumber(y, m, d) == t / MsPerDay
    ensures DateUtc(y, m - 1, d) == Some(t - t % MsPerDay)
  {
    assert (m - 1) / 12 == 0 && (m - 1) % 12 == m - 1;
  }

  // ---------------------------------------------------------------------------
  // eliminate_double_ts

  /** Element `k` survives `eliminate_double_ts`: the first element, or one whose
      timestamp differs from that of its predecessor in the original array. */
  predicate Keep(s: seq<Candle>, k: int)
    requires 0 <= k < |s|
  {
    k == 0 || s[k].ts != s[k - 1].ts
  }

  /** The survivors among `s[k..]`, in order. */
  function KeptFrom(s: seq<Candle>, k: nat): seq<Candle>
    decreases |s| - k
  {
    if k >= |s| then []
    else (if Keep(s, k) then [s[k]] else []) + KeptFrom(s, k + 1)
  }

  /** What `eliminate_double_ts` leaves of `s`. */
  function DedupAdjacent(s: seq<Candle>): seq<Candle>
  {
    KeptFrom(s, 0)
  }

  predicate NoAdjacentRepeat(s: seq<Candle>)
  {
    forall i :: 0 < i < |s| ==> s[i].ts != s[i - 1].ts
  }

  /** A JavaScript array of candles, which `splice` shortens in place. */
  class CandleArray {
    var items: seq<Candle>

    constructor (items: seq<Candle>)
      ensures this.items == items
    {
      this.items := items;
    }
  }

  /** `eliminate_double_ts`: collect the positions whose timestamp repeats that of
      the previous element, then splice them out from the last to the first so that
      earlier positions stay valid. */
  method EliminateDoubleTs(arr: CandleArray)
    modifies arr
    ensures arr.items == DedupAdjacent(old(arr.items))
  {
    var toRemove := CollectRepeats(arr.items);
    SpliceRepeats(arr, arr.items, toRemove);
  }

  /** The first loop of `eliminate_double_ts`: the positions whose timestamp
      repeats that of the previous element, in increasing order. */
  method CollectRepeats(s: seq<Candle>) returns (toRemove: seq<nat>)
    ensures RepeatPositions(s, toRemove, |s|)
  {
    var i := 1;
    toRemove := [];
    while i < |s|
      invariant 1 <= i <= if |s| == 0 then 1 else |s|
      invariant toRemove == Repeats(s, i)
    {
      if s[i].ts == s[i - 1].ts {
        toRemove := toRemove + [i];
      }
      i := i + 1;
    }
    RepeatsFacts(s, i);
  }

  /** The second loop of `eliminate_double_ts`: splice the listed repeats out from
      the last to the first, so that earlier positions stay valid. */
  method SpliceRepeats(arr: CandleArray, ghost s: seq<Candle>, toRemove: seq<nat>)
    requires arr.items == s && RepeatPositions(s, toRemove, |s|)
    modifies arr
    ensures arr.items == DedupAdjacent(s)
  {
    var k := |toRemove| - 1;
    ghost var bound := |s|;
    while k >= 0
      invariant -1 <= k < |toRemove|
      invariant bound == if k + 1 < |toRemove| then toRemove[k + 1] else |s|
      invariant arr.items == s[..bound] + KeptFrom(s, bound)
      decreases k + 1
    {
      GapKept(s, toRemove, |s|, k);
      SpliceRepeat(s, toRemove[k], bound, arr.items);
      arr.items := arr.items[..toRemove[k]] + arr.items[toRemove[k] + 1..];
      bound := toRemove[k];
      k := k - 1;
    }
    SplicedAll(s, toRemove, |s|, bound);
  }

  /** The positions in `1..upto - 1` whose timestamp repeats that of their
      predecessor, in increasing order: what the first loop collects. */
  function Repeats(s: seq<Candle>, upto: int): seq<nat>
    decreases upto
  {
    if upto <= 1 then []
    else Repeats(s, upto - 1) + if upto - 1 < |s| && s[upto - 1].ts == s[upto - 2].ts then [upto - 1] else []
  }

  /** `toRemove` lists, in increasing order, exactly the positions below `upto` whose
      timestamp repeats that of their predecessor. */
  predicate RepeatPositions(s: seq<Candle>, toRemove: seq<nat>, upto: int)
  {
    (forall m :: 0 <= m < |toRemove| ==> 1 <= toRemove[m] < upto && toRemove[m] < |s| && !Keep(s, toRemove[m])) &&
    (forall m, n :: 0 <= m < n < |toRemove| ==> toRemove[m] < toRemove[n]) &&
    (forall j :: 1 <= j < upto && j < |s| && !Keep(s, j) ==> j in toRemove)
  }

  lemma {:induction false} RepeatsFacts(s: seq<Candle>, upto: int)
    ensures RepeatPositions(s, Repeats(s, upto), upto)
    decreases upto
  {
    if upto > 1 {
      RepeatsFacts(s, upto - 1);
      var prev := Repeats(s, upto - 1);
      var r := Repeats(s, upto);
      forall j | 1 <= j < upto && j < |s| && !Keep(s, j) ensures j in r {
        if j < upto - 1 {
          assert j in prev;
        } else {
          assert r[|r| - 1] == j;
        }
      }
    }
  }

  /** Between two consecutive listed repeats every element survives. */
  lemma GapKept(s: seq<Candle>, toRemove: seq<nat>, upto: int, k: int)
    requires RepeatPositions(s, toRemove, upto) && upto >= |s| && 0 <= k < |toRemove|
    ensures var bound := if k + 1 < |toRemove| then toRemove[k + 1] else |s|;
      toRemove[k] < bound <= |s| && !Keep(s, toRemove[k]) &&
      forall j :: toRemove[k] < j < bound ==> Keep(s, j)
  {
    var bound := if k + 1 < |toRemove| then toRemove[k + 1] else |s|;
    forall j | toRemove[k] < j < bound ensures Keep(s, j) {
      forall n | 0 <= n < |toRemove| ensures toRemove[n] != j {
        if n < k {
          assert toRemove[n] < toRemove[k];
        } else if k + 1 < n {
          assert toRemove[k + 1] < toRemove[n];
        }
      }
      assert j !in toRemove;
    }
  }

  /** Splicing out the repeat at `at` extends the cleaned tail down to it. */
  lemma SpliceRepeat(s: seq<Candle>, at: int, bound: int, items: seq<Candle>)
    requires 0 <= at < bound <= |s| && !Keep(s, at)
    requires forall j :: at < j < bound ==> Keep(s, j)
    requires items == s[..bound] + KeptFrom(s, bound)
    ensures items[..at] + items[at + 1..] == s[..at] + KeptFrom(s, at)
  {
    var tail := KeptFrom(s, bound);
    KeptFromRun(s, at + 1, bound);
    assert KeptFrom(s, at) == KeptFrom(s, at + 1);
    DropAt(s[..bound], tail, at);
    assert s[..bound][..at] == s[..at] && s[..bound][at + 1..] == s[at + 1..bound];
  }

  /** Removing position `at` of `a + b`, with `at` inside `a`. */
  lemma DropAt<T>(a: seq<T>, b: seq<T>, at: int)
    requires 0 <= at < |a|
    ensures (a + b)[..at] + (a + b)[at + 1..] == a[..at] + (a[at + 1..] + b)
  {
    assert (a + b)[..at] == a[..at];
    assert (a + b)[at + 1..] == a[at + 1..] + b;
  }

  /** Once every listed repeat is gone, what is left is the cleaned array. */
  lemma SplicedAll(s: seq<Candle>, toRemove: seq<nat>, upto: int, bound: int)
    requires RepeatPositions(s, toRemove, upto) && upto >= |s|
    requires bound == if 0 < |toRemove| then toRemove[0] else |s|
    ensures s[..bound] + KeptFrom(s, bound) == DedupAdjacent(s)
  {
    forall j | 0 <= j < bound ensures Keep(s, j) {
      forall n | 0 <= n < |toRemove| ensures toRemove[n] != j {
        if 0 < n {
          assert toRemove[0] < toRemove[n];
        }
      }
      assert j !in toRemove;
    }
    KeptFromRun(s, 0, bound);
  }

  /** A stretch of survivors is kept whole. */
  lemma {:induction false} KeptFromRun(s: seq<Candle>, a: nat, b: nat)
    requires a <= b <= |s|
    requires forall j :: a <= j < b ==> Keep(s, j)
    ensures KeptFrom(s, a) == s[a..b] + KeptFrom(s, b)
    decreases b - a
  {
    if a < b {
      KeptFromRun(s, a + 1, b);
      assert KeptFrom(s, a) == [s[a]] + KeptFrom(s, a + 1);
      assert s[a..b] == [s[a]] + s[a + 1..b];
    }
  }

  /** The survivors form a subsequence of the original array. */
  lemma {:induction false} KeptFromSubseq(s: seq<Candle>, k: nat)
    requires k <= |s|
    ensures Subseq(KeptFrom(s, k), s[k..])
    decreases |s| - k
  {
    if k == |s| {
      SubseqRefl(s[k..]);
    } else {
      KeptFromSubseq(s, k + 1);
      assert s[k..] == [s[k]] + s[k + 1..];
      if Keep(s, k) {
        assert KeptFrom(s, k) == [s[k]] + KeptFrom(s, k + 1);
        SubseqCons(s[k], KeptFrom(s, k + 1), s[k + 1..]);
      } else {
        assert KeptFrom(s, k) == KeptFrom(s, k + 1);
        SubseqSkip(KeptFrom(s, k + 1), s[k], s[k + 1..]);
      }
    }
  }

  /** The first survivor after position `k - 1` carries another timestamp than the
      element at `k - 1`. */
  lemma {:induction false} KeptFirstDiffers(s: seq<Candle>, k: nat)
    requires 0 < k <= |s| && KeptFrom(s, k) != []
    ensures KeptFrom(s, k)[0].ts != s[k - 1].ts
    decreases |s| - k
  {
    if !Keep(s, k) {
      KeptFirstDiffers(s, k + 1);
    }
  }

  lemma {:induction false} KeptFromNoRepeat(s: seq<Candle>, k: nat)
    requires k <= |s|
    ensures NoAdjacentRepeat(KeptFrom(s, k))
    decreases |s| - k
  {
    if k < |s| {
      KeptFromNoRepeat(s, k + 1);
      var rest := KeptFrom(s, k + 1);
      if Keep(s, k) && rest != [] {
        KeptFirstDiffers(s, k + 1);
        var r := KeptFrom(s, k);
        assert r == [s[k]] + rest;
        forall i | 0 < i < |r| ensures r[i].ts != r[i - 1].ts {
          if i > 1 {
            assert r[i] == rest[i - 1] && r[i - 1] == rest[i - 2];
          }
        }
      }
    }
  }

  lemma {:induction false} KeptFromStamps(s: seq<Candle>, k: nat)
    requires k <= |s|
    ensures StampSet(KeptFrom(s, k)) <= StampSet(s[k..])
    ensures 0 < k < |s| ==> StampSet(s[k..]) <= StampSet(KeptFrom(s, k)) + {s[k - 1].ts}
    ensures k == 0 ==> StampSet(s[k..]) <= StampSet(KeptFrom(s, k))
    decreases |s| - k
  {
    if k < |s| {
      KeptFromStamps(s, k + 1);
      var rest := KeptFrom(s, k + 1);
      assert s[k..] == [s[k]] + s[k + 1..];
      StampSetConcat([s[k]], s[k + 1..]);
      assert StampSet([s[k]]) == {s[k].ts};
      if Keep(s, k) {
        assert KeptFrom(s, k) == [s[k]] + rest;
        StampSetConcat([s[k]], rest);
      } else {
        assert KeptFrom(s, k) == rest;
      }
    }
  }

  /** `eliminate_double_ts` keeps a subsequence of its input with no two adjacent
      equal timestamps and loses no timestamp. */
  lemma DedupAdjacentFacts(s: seq<Candle>)
    ensures Subseq(DedupAdjacent(s), s)
    ensures NoAdjacentRepeat(DedupAdjacent(s))
    ensures StampSet(DedupAdjacent(s)) == StampSet(s)
  {
    KeptFromSubseq(s, 0);
    KeptFromNoRepeat(s, 0);
    KeptFromStamps(s, 0);
    assert s[0..] == s;
  }

  lemma {:induction false} KeptFromAll(s: seq<Candle>, k: nat)
    requires k <= |s| && NoAdjacentRepeat(s)
    ensures KeptFrom(s, k) == s[k..]
    decreases |s| - k
  {
    if k < |s| {
      KeptFromAll(s, k + 1);
      assert s[k..] == [s[k]] + s[k + 1..];
    }
  }

  /** An array without adjacent equal timestamps is left unchanged. */
  lemma DedupAdjacentOfClean(s: seq<Candle>)
    requires NoAdjacentRepeat(s)
    ensures DedupAdjacent(s) == s
  {
    KeptFromAll(s, 0);
  }

  lemma DedupAdjacentIdempotent(s: seq<Candle>)
    ensures DedupAdjacent(DedupAdjacent(s)) == DedupAdjacent(s)
  {
    DedupAdjacentFacts(s);
    DedupAdjacentOfClean(DedupAdjacent(s));
  }

  // ---------------------------------------------------------------------------
  // Sort, then eliminate_double_ts

  /** The rows `get_ohlcv` writes: stably sorted by timestamp, then cleaned. */
  function Finalise(rows: seq<Candle>): seq<Candle>
  {
    DedupAdjacent(SortByTs(rows))
  }

  lemma SortedNoRepeatIsStrict(s: seq<Candle>)
    requires SortedByTs(s) && NoAdjacentRepeat(s)
    ensures StrictlyIncreasing(s)
  {
    forall i, j | 0 <= i < j < |s| ensures s[i].ts < s[j].ts {
      assert s[i].ts <= s[j - 1].ts;
    }
  }

  /** After the sort and the clean-up the timestamps are strictly increasing and are
      exactly those of the collected responses. */
  lemma FinaliseFacts(rows: seq<Candle>)
    ensures StrictlyIncreasing(Finalise(rows))
    ensures StampSet(Finalise(rows)) == StampSet(rows)
    ensures multiset(Finalise(rows)) <= multiset(rows)
  {
    var sorted := SortByTs(rows);
    SortByTsFacts(rows);
    SortByTsStamps(rows);
    DedupAdjacentFacts(sorted);
    SubseqSorted(DedupAdjacent(sorted), sorted);
    SortedNoRepeatIsStrict(DedupAdjacent(sorted));
    SubseqMultiset(DedupAdjacent(sorted), sorted);
  }

  lemma {:induction false} SubseqMultiset(a: seq<Candle>, b: seq<Candle>)
    requires Subseq(a, b)
    ensures multiset(a) <= multiset(b)
    decreases |b|
  {
    if a != [] && b != [] {
      assert b == [b[0]] + b[1..];
      if a[0] == b[0] {
        assert a == [a[0]] + a[1..];
        SubseqMultiset(a[1..], b[1..]);
      } else {
        SubseqMultiset(a, b[1..]);
      }
    }
  }

  /** The order in which the pages arrive decides which of two rows with the same
      timestamp survives, but not which timestamps are written. */
  lemma FinaliseStampsIgnoreOrder(a: seq<Candle>, b: seq<Candle>)
    requires multiset(a) == multiset(b)
    ensures StampSet(Finalise(a)) == StampSet(Finalise(b))
  {
    FinaliseFacts(a);
    FinaliseFacts(b);
    forall t | t in StampSet(a) ensures t in StampSet(b) {
      var c :| c in a && c.ts == t;
      assert c in multiset(b);
    }
    forall t | t in StampSet(b) ensures t in StampSet(a) {
      var c :| c in b && c.ts == t;
      assert c in multiset(a);
    }
  }

  // ---------------------------------------------------------------------------
  // Pages and retries

  /** The `tf_array` loop of `get_ohlcv`: the page starts from `startingDate`, one
      `span = limit * tf_ms` apart, for as long as they stay below `now`. */
  method TfArray(startingDate: int, now: int, span: int) returns (tfArray: seq<int>)
    requires span > 0
    ensures tfArray == Paging.Windows(startingDate, now, span)
  {
    tfArray := [startingDate];
    var lastTf := startingDate;
    ghost var done: seq<int> := [];
    if startingDate >= now {
      Paging.WindowsLast(startingDate, now, span);
    }
    while lastTf < now
      invariant lastTf < now ==>
        tfArray == done + [lastTf] && Paging.Windows(startingDate, now, span) == done + Paging.Windows(lastTf, now, span)
      invariant lastTf >= now ==> Paging.Windows(startingDate, now, span) == tfArray
      decreases now - lastTf
    {
      if lastTf + span < now {
        Paging.WindowsNext(lastTf, now, span);
        assert done + ([lastTf] + Paging.Windows(lastTf + span, now, span))
            == (done + [lastTf]) + Paging.Windows(lastTf + span, now, span);
        done := done + [lastTf];
      } else {
        Paging.WindowsLast(lastTf, now, span);
      }
      lastTf := lastTf + span;
      if lastTf < now {
        tfArray := tfArray + [lastTf];
      }
    }
  }

  /** The promise chain for one page: up to three calls with the same arguments;
      the first page that arrives is kept, and after three failures nothing is. */
  method FetchWindow(fetch: Oracle, pair: string, timeframe: string, since: int)
    returns (page: Option<seq<Candle>>, attempts: nat)
    ensures 1 <= attempts <= 3
    ensures page.Some? <==> FirstSuccess(fetch, pair, timeframe, since, 1, 3).Some?
    ensures page.Some? ==> FirstSuccess(fetch, pair, timeframe, since, 1, 3) == Some((page.value, attempts))
    ensures page.None? ==> attempts == 3
  {
    match fetch(pair, timeframe, since, 1) {
      case Page(rows) =>
        return Some(rows), 1;
      case Failure =>
        match fetch(pair, timeframe, since, 2) {
          case Page(rows) =>
            return Some(rows), 2;
          case Failure =>
            match fetch(pair, timeframe, since, 3) {
              case Page(rows) =>
                return Some(rows), 3;
              case Failure =>
                return None, 3;
            }
        }
    }
  }

  /** What one page contributes to `result_ohlcv`. */
  function WindowRows(fetch: Oracle, pair: string, timeframe: string, since: int): seq<Candle>
  {
    match FirstSuccess(fetch, pair, timeframe, since, 1, 3)
    case Some(p) => p.0
    case None => []
  }

  /** `result_ohlcv` once every page has been settled, the pages taken in window
      order. */
  function Collected(fetch: Oracle, pair: string, timeframe: string, starts: seq<int>): seq<Candle>
  {
    if starts == [] then []
    else Collected(fetch, pair, timeframe, starts[..|starts| - 1])
         + WindowRows(fetch, pair, timeframe, starts[|starts| - 1])
  }

  /** A row is collected exactly when one of the pages that arrived holds it. */
  lemma {:induction false} CollectedMeaning(fetch: Oracle, pair: string, timeframe: string, starts: seq<int>, c: Candle)
    ensures c in Collected(fetch, pair, timeframe, starts) <==>
      exists i :: 0 <= i < |starts| && FirstSuccess(fetch, pair, timeframe, starts[i], 1, 3).Some? &&
                  c in FirstSuccess(fetch, pair, timeframe, starts[i], 1, 3).value.0
  {
    if starts != [] {
      var init := starts[..|starts| - 1];
      CollectedMeaning(fetch, pair, timeframe, init, c);
      var last := starts[|starts| - 1];
      if c in WindowRows(fetch, pair, timeframe, last) {
        assert FirstSuccess(fetch, pair, timeframe, starts[|starts| - 1], 1, 3).Some?;
      }
      if exists i :: 0 <= i < |starts| && FirstSuccess(fetch, pair, timeframe, starts[i], 1, 3).Some? &&
                     c in FirstSuccess(fetch, pair, timeframe, starts[i], 1, 3).value.0 {
        var i :| 0 <= i < |starts| && FirstSuccess(fetch, pair, timeframe, starts[i], 1, 3).Some? &&
                 c in FirstSuccess(fetch, pair, timeframe, starts[i], 1, 3).value.0;
        if i < |init| {
          assert starts[i] == init[i];
        }
      }
    }
  }

  // ---------------------------------------------------------------------------
  // get_ohlcv

  /** `database/<exchange>/<timeframe>/<pair>.csv`, with only the first `/` of the
      pair turned into `-`. */
  function JsFilePath(exchangeName: string, timeframe: string, pair: string): string
  {
    "./database/" + exchangeName + "/" + timeframe + "/" + ReplaceFirst(pair, '/', '-') + ".csv"
  }

  /** A pair with two slashes keeps its second one: the file lands one directory
      further down, where the Python downloader would have replaced both. */
  lemma PairWithTwoSlashes(exchangeName: string, timeframe: string)
    ensures JsFilePath(exchangeName, timeframe, "A/B/C")
         == "./database/" + exchangeName + "/" + timeframe + "/" + "A-B/C" + ".csv"
    ensures ReplaceAll("A/B/C", '/', '-') == "A-B-C"
  {
    var s := "A/B/C";
    assert s == "A" + ['/'] + "B/C";
    ReplaceFirstAt("A", "B/C", '/', '-');
    assert "A" + ['-'] + "B/C" == "A-B/C";
    BothSlashesReplaced();
  }

  lemma BothSlashesReplaced()
    ensures ReplaceAll("A/B/C", '/', '-') == "A-B-C"
  {
    var all := ReplaceAll("A/B/C", '/', '-');
    assert all[0] == 'A' && all[1] == '-' && all[2] == 'B' && all[3] == '-' && all[4] == 'C';
  }

  datatype JsError =
    | InvalidDate     // the start date is not a date: every page would start at NaN
    | NoCandles       // nothing was collected: reading `result_ohlcv[0][0]` throws

  /** What one `get_ohlcv` call produces before writing its file. */
  datatype Download = Download(path: string, rows: seq<Candle>, firstDate: string, requests: nat, total: nat)

  function OhlcvOutcome(fetch: Oracle, exchangeName: string, pair: string, timeframe: string,
                        sinceDate: string, span: int, now: int): (r: Result<Download, JsError>)
    requires span > 0
  {
    match DateToTimestamp(sinceDate)
    case None => Err(InvalidDate)
    case Some(start) =>
      var starts := Paging.Windows(start, now, span);
      var rows := Finalise(Collected(fetch, pair, timeframe, starts));
      if rows == [] then Err(NoCandles)
      else Ok(Download(JsFilePath(exchangeName, timeframe, pair), rows, TimestampToDate(rows[0].ts),
                       |starts|, |starts|))
  }

  /** Every download is written with strictly increasing timestamps, exactly those
      of the pages that arrived, and the waiting loop ends because each page counts
      once whether it arrived or ran out of attempts. */
  lemma OhlcvOutcomeFacts(fetch: Oracle, exchangeName: string, pair: string, timeframe: string,
                          sinceDate: string, span: int, now: int)
    requires span > 0
    ensures var r := OhlcvOutcome(fetch, exchangeName, pair, timeframe, sinceDate, span, now);
      r.Ok? ==>
        var starts := Paging.Windows(DateToTimestamp(sinceDate).value, now, span);
        r.value.rows != [] && StrictlyIncreasing(r.value.rows) &&
        StampSet(r.value.rows) == StampSet(Collected(fetch, pair, timeframe, starts)) &&
        r.value.requests == r.value.total &&
        r.value.total == if starts[0] < now then Paging.CeilDiv(now - starts[0], span) else 1
  {
    var r := OhlcvOutcome(fetch, exchangeName, pair, timeframe, sinceDate, span, now);
    if r.Ok? {
      var start := DateToTimestamp(sinceDate).value;
      FinaliseFacts(Collected(fetch, pair, timeframe, Paging.Windows(start, now, span)));
      Paging.WindowsCount(start, now, span);
      Paging.WindowsShape(start, now, span);
    }
  }

  /** `OhlcvOutcome` once the start date has been read. */
  lemma OhlcvOutcomeFrom(fetch: Oracle, exchangeName: string, pair: string, timeframe: string,
                         sinceDate: string, span: int, now: int, start: int, rows: seq<Candle>)
    requires span > 0 && DateToTimestamp(sinceDate) == Some(start)
    requires rows == Finalise(Collected(fetch, pair, timeframe, Paging.Windows(start, now, span)))
    ensures var n := |Paging.Windows(start, now, span)|;
      OhlcvOutcome(fetch, exchangeName, pair, timeframe, sinceDate, span, now)
      == if rows == [] then Err(NoCandles)
         else Ok(Download(JsFilePath(exchangeName, timeframe, pair), rows, TimestampToDate(rows[0].ts), n, n))
  {
  }

  /** `get_ohlcv`: every page is requested with its retry chain and counted once
      settled; then the rows are sorted, cleaned up and given their file path. */
  method GetOhlcv(fetch: Oracle, exchangeName: string, pair: string, timeframe: string,
                  sinceDate: string, limit: int, tfMs: int, now: int)
    returns (r: Result<Download, JsError>)
    requires limit * tfMs > 0
    ensures r == OhlcvOutcome(fetch, exchangeName, pair, timeframe, sinceDate, limit * tfMs, now)
  {
    var startingDate := DateToTimestamp(sinceDate);
    if startingDate.None? {
      return Err(InvalidDate);
    }
    var tfArray := TfArray(startingDate.value, now, limit * tfMs);
    var totalRequest := |tfArray|;
    var resultOhlcv, currentRequest := FetchPages(fetch, pair, timeframe, tfArray);
    var arr := new CandleArray(SortByTs(resultOhlcv));
    EliminateDoubleTs(arr);
    resultOhlcv := arr.items;
    OhlcvOutcomeFrom(fetch, exchangeName, pair, timeframe, sinceDate, limit * tfMs, now, startingDate.value,
                     resultOhlcv);
    if resultOhlcv == [] {
      return Err(NoCandles);
    }
    var filePath := JsFilePath(exchangeName, timeframe, pair);
    var firstDate := TimestampToDate(resultOhlcv[0].ts);
    return Ok(Download(filePath, resultOhlcv, firstDate, currentRequest, totalRequest));
  }

  /** The request loop of `get_ohlcv`: every page is requested with its retry
      chain, its rows are appended when it arrives, and the counter goes up once
      per page whether it arrived or not. */
  method FetchPages(fetch: Oracle, pair: string, timeframe: string, tfArray: seq<int>)
    returns (resultOhlcv: seq<Candle>, currentRequest: nat)
    ensures resultOhlcv == Collected(fetch, pair, timeframe, tfArray)
    ensures currentRequest == |tfArray|
  {
    resultOhlcv := [];
    currentRequest := 0;
    var k := 0;
    while k < |tfArray|
      invariant 0 <= k <= |tfArray|
      invariant currentRequest == k
      invariant resultOhlcv == Collected(fetch, pair, timeframe, tfArray[..k])
    {
      var page, _ := FetchWindow(fetch, pair, timeframe, tfArray[k]);
      assert tfArray[..k + 1][..k] == tfArray[..k];
      if page.Some? {
        resultOhlcv := resultOhlcv + page.value;
      }
      currentRequest := currentRequest + 1;
      k := k + 1;
    }
    assert tfArray[..k] == tfArray;
  }

  // ---------------------------------------------------------------------------
  // get_multi_ohlcv

  type Store = map<string, seq<Candle>>

  /** The calls of the inner loop for one timeframe. */
  function Row(timeframe: string, pairs: seq<string>): (r: seq<(string, string)>)
    ensures |r| == |pairs| && forall j :: 0 <= j < |pairs| ==> r[j] == (timeframe, pairs[j])
  {
    if pairs == [] then [] else [(timeframe, pairs[0])] + Row(timeframe, pairs[1..])
  }

  /** The (timeframe, pair) calls of a complete run: timeframe-major. */
  function TfMajor(timeframes: seq<string>, pairs: seq<string>): seq<(string, string)>
  {
    if timeframes == [] then [] else Row(timeframes[0], pairs) + TfMajor(timeframes[1..], pairs)
  }

  lemma {:induction false} TfMajorLength(timeframes: seq<string>, pairs: seq<string>)
    ensures |TfMajor(timeframes, pairs)| == |timeframes| * |pairs|
  {
    if timeframes != [] {
      TfMajorLength(timeframes[1..], pairs);
      MulSucc(|timeframes|, |pairs|);
    }
  }

  /** The call for the `j`-th pair of the `i`-th timeframe comes at position
      `i * |pairs| + j`: each (timeframe, pair) is visited once, timeframe-major. */
  lemma TfMajorAt(timeframes: seq<string>, pairs: seq<string>, i: int, j: int)
    requires 0 <= i < |timeframes| && 0 <= j < |pairs|
    ensures i * |pairs| + j < |TfMajor(timeframes, pairs)|
    ensures TfMajor(timeframes, pairs)[i * |pairs| + j] == (timeframes[i], pairs[j])
  {
    TfMajorAtOffset(timeframes, pairs, i, j);
    OffsetMul(i, |pairs|);
  }

  /** `i * n`, counted out row by row. */
  function Offset(i: nat, n: nat): nat
  {
    if i == 0 then 0 else n + Offset(i - 1, n)
  }

  lemma {:induction false} OffsetMul(i: nat, n: nat)
    ensures Offset(i, n) == i * n
  {
    if i > 0 {
      OffsetMul(i - 1, n);
      MulSucc(i, n);
    }
  }

  lemma {:induction false} TfMajorAtOffset(timeframes: seq<string>, pairs: seq<string>, i: nat, j: int)
    requires i < |timeframes| && 0 <= j < |pairs|
    ensures Offset(i, |pairs|) + j < |TfMajor(timeframes, pairs)|
    ensures TfMajor(timeframes, pairs)[Offset(i, |pairs|) + j] == (timeframes[i], pairs[j])
    decreases i
  {
    var rest := timeframes[1..];
    var row := Row(timeframes[0], pairs);
    var later := TfMajor(rest, pairs);
    assert TfMajor(timeframes, pairs) == row + later;
    if i == 0 {
      assert (row + later)[j] == row[j];
    } else {
      TfMajorAtOffset(rest, pairs, i - 1, j);
      ConcatAt(row, later, Offset(i - 1, |pairs|) + j);
      assert rest[i - 1] == timeframes[i];
    }
  }

  lemma ConcatAt<T>(a: seq<T>, b: seq<T>, k: int)
    requires 0 <= k < |b|
    ensures |a| + k < |a + b| && (a + b)[|a| + k] == b[k]
  {
  }

  lemma MulSucc(a: int, n: int)
    ensures a * n == n + (a - 1) * n
  {
  }

  /** The outcome of a run, the files afterwards and the calls made. */
  datatype Run = Run(result: Result<(), JsError>, files: Store, calls: seq<(string, string)>)

  function Then(calls: seq<(string, string)>, r: Run): Run
  {
    Run(r.result, r.files, calls + r.calls)
  }

  /** The inner loop: the pairs of one timeframe in order; a failing call rejects
      the awaited promise and ends the whole run. */
  function RunPairs(files: Store, fetch: Oracle, exchangeName: string, pairs: seq<string>, timeframe: string,
                    startDate: string, span: int, now: int): Run
    requires span > 0
    decreases |pairs|
  {
    if pairs == [] then Run(Ok(()), files, [])
    else
      match OhlcvOutcome(fetch, exchangeName, pairs[0], timeframe, startDate, span, now)
      case Err(e) => Run(Err(e), files, [(timeframe, pairs[0])])
      case Ok(d) =>
        Then([(timeframe, pairs[0])],
             RunPairs(files[d.path := d.rows], fetch, exchangeName, pairs[1..], timeframe, startDate, span, now))
  }

  predicate Configured(exchangeName: string, timeframes: seq<string>, limits: map<string, int>, tfMs: map<string, int>)
  {
    exchangeName in limits && forall tf :: tf in timeframes ==> tf in tfMs && limits[exchangeName] * tfMs[tf] > 0
  }

  function RunAll(files: Store, fetch: Oracle, exchangeName: string, pairs: seq<string>, timeframes: seq<string>,
                  startDate: string, limits: map<string, int>, tfMs: map<string, int>, now: int): Run
    requires Configured(exchangeName, timeframes, limits, tfMs)
    decreases |timeframes|
  {
    if timeframes == [] then Run(Ok(()), files, [])
    else
      var first := RunPairs(files, fetch, exchangeName, pairs, timeframes[0], startDate,
                            limits[exchangeName] * tfMs[timeframes[0]], now);
      if first.result.Err? then first
      else Then(first.calls, RunAll(first.files, fetch, exchangeName, pairs, timeframes[1..], startDate,
                                    limits, tfMs, now))
  }

  lemma ThenThen(a: seq<(string, string)>, b: seq<(string, string)>, r: Run)
    ensures Then(a, Then(b, r)) == Then(a + b, r)
  {
    assert a + (b + r.calls) == (a + b) + r.calls;
  }

  /** One turn of the inner loop. */
  lemma RunPairsStep(files: Store, fetch: Oracle, exchangeName: string, pairs: seq<string>, timeframe: string,
                     startDate: string, span: int, now: int, d: Result<Download, JsError>)
    requires span > 0 && pairs != []
    requires d == OhlcvOutcome(fetch, exchangeName, pairs[0], timeframe, startDate, span, now)
    ensures d.Err? ==> RunPairs(files, fetch, exchangeName, pairs, timeframe, startDate, span, now)
                       == Run(Err(d.error), files, [(timeframe, pairs[0])])
    ensures d.Ok? ==> RunPairs(files, fetch, exchangeName, pairs, timeframe, startDate, span, now)
                      == Then([(timeframe, pairs[0])], RunPairs(files[d.value.path := d.value.rows], fetch,
                              exchangeName, pairs[1..], timeframe, startDate, span, now))
  {
  }

  /** One turn of the outer loop. */
  lemma RunAllStep(files: Store, fetch: Oracle, exchangeName: string, pairs: seq<string>, timeframes: seq<string>,
                   startDate: string, limits: map<string, int>, tfMs: map<string, int>, now: int)
    requires timeframes != [] && Configured(exchangeName, timeframes, limits, tfMs)
    ensures Configured(exchangeName, timeframes[1..], limits, tfMs)
    ensures var first := RunPairs(files, fetch, exchangeName, pairs, timeframes[0], startDate,
                                  limits[exchangeName] * tfMs[timeframes[0]], now);
      RunAll(files, fetch, exchangeName, pairs, timeframes, startDate, limits, tfMs, now)
      == if first.result.Err? then first
         else Then(first.calls, RunAll(first.files, fetch, exchangeName, pairs, timeframes[1..], startDate,
                                       limits, tfMs, now))
  {
    ConfiguredTail(exchangeName, timeframes, limits, tfMs);
  }

  /** A file is written, rather than kept, only with strictly increasing
      timestamps. */
  ghost predicate WrittenSorted(before: Store, after: Store)
  {
    forall p :: p in after && (p !in before || after[p] != before[p]) ==> StrictlyIncreasing(after[p])
  }

  lemma {:induction false} RunPairsCalls(files: Store, fetch: Oracle, exchangeName: string, pairs: seq<string>,
                                         timeframe: string, startDate: string, span: int, now: int)
    requires span > 0
    ensures var r := RunPairs(files, fetch, exchangeName, pairs, timeframe, startDate, span, now);
      (r.result.Ok? ==> r.calls == Row(timeframe, pairs)) &&
      (r.result.Err? ==> r.calls != [] && r.calls <= Row(timeframe, pairs))
    decreases |pairs|
  {
    if pairs != [] {
      var o := OhlcvOutcome(fetch, exchangeName, pairs[0], timeframe, startDate, span, now);
      if o.Ok? {
        RunPairsCalls(files[o.value.path := o.value.rows], fetch, exchangeName, pairs[1..], timeframe,
                      startDate, span, now);
      }
    }
  }

  lemma {:induction false} RunPairsWrites(files: Store, fetch: Oracle, exchangeName: string, pairs: seq<string>,
                                          timeframe: string, startDate: string, span: int, now: int)
    requires span > 0
    ensures WrittenSorted(files, RunPairs(files, fetch, exchangeName, pairs, timeframe, startDate, span, now).files)
    decreases |pairs|
  {
    if pairs != [] {
      var o := OhlcvOutcome(fetch, exchangeName, pairs[0], timeframe, startDate, span, now);
      if o.Ok? {
        var next := files[o.value.path := o.value.rows];
        RunPairsWrites(next, fetch, exchangeName, pairs[1..], timeframe, startDate, span, now);
        OhlcvOutcomeFacts(fetch, exchangeName, pairs[0], timeframe, startDate, span, now);
      }
    }
  }

  /** A run that succeeds calls `get_ohlcv` once per (timeframe, pair),
      timeframe-major; a run that fails stops right after the failing call, having
      made a prefix of those calls. */
  lemma {:induction false} RunAllCalls(files: Store, fetch: Oracle, exchangeName: string, pairs: seq<string>,
                                       timeframes: seq<string>, startDate: string,
                                       limits: map<string, int>, tfMs: map<string, int>, now: int)
    requires Configured(exchangeName, timeframes, limits, tfMs)
    ensures var r := RunAll(files, fetch, exchangeName, pairs, timeframes, startDate, limits, tfMs, now);
      (r.result.Ok? ==> r.calls == TfMajor(timeframes, pairs)) &&
      (r.result.Err? ==> r.calls != [] && r.calls <= TfMajor(timeframes, pairs))
    decreases |timeframes|
  {
    if timeframes != [] {
      var span := limits[exchangeName] * tfMs[timeframes[0]];
      var first := RunPairs(files, fetch, exchangeName, pairs, timeframes[0], startDate, span, now);
      RunPairsCalls(files, fetch, exchangeName, pairs, timeframes[0], startDate, span, now);
      if first.result.Ok? {
        ConfiguredTail(exchangeName, timeframes, limits, tfMs);
        RunAllCalls(first.files, fetch, exchangeName, pairs, timeframes[1..], startDate, limits, tfMs, now);
      }
    }
  }

  /** Every file a run writes holds strictly increasing timestamps. */
  lemma {:induction false} RunAllWrites(files: Store, fetch: Oracle, exchangeName: string, pairs: seq<string>,
                                        timeframes: seq<string>, startDate: string,
                                        limits: map<string, int>, tfMs: map<string, int>, now: int)
    requires Configured(exchangeName, timeframes, limits, tfMs)
    ensures WrittenSorted(files, RunAll(files, fetch, exchangeName, pairs, timeframes, startDate, limits, tfMs, now).files)
    decreases |timeframes|
  {
    if timeframes != [] {
      var span := limits[exchangeName] * tfMs[timeframes[0]];
      var first := RunPairs(files, fetch, exchangeName, pairs, timeframes[0], startDate, span, now);
      RunPairsWrites(files, fetch, exchangeName, pairs, timeframes[0], startDate, span, now);
      if first.result.Ok? {
        ConfiguredTail(exchangeName, timeframes, limits, tfMs);
        RunAllWrites(first.files, fetch, exchangeName, pairs, timeframes[1..], startDate, limits, tfMs, now);
      }
    }
  }

  lemma ConfiguredTail(exchangeName: string, timeframes: seq<string>, limits: map<string, int>, tfMs: map<string, int>)
    requires timeframes != [] && Configured(exchangeName, timeframes, limits, tfMs)
    ensures Configured(exchangeName, timeframes[1..], limits, tfMs)
  {
    forall tf | tf in timeframes[1..] ensures tf in tfMs && limits[exchangeName] * tfMs[tf] > 0 {
      assert tf in timeframes;
    }
  }

  /** The directory tree the downloader writes into. */
  class Database {
    var files: Store

    constructor (existing: Store)
      ensures files == existing
    {
      files := existing;
    }

    /** The inner loop of `get_multi_ohlcv` for one timeframe: each pair in turn,
        awaiting `get_ohlcv` and writing its file; a failure ends the run. */
    method GetPairs(fetch: Oracle, exchangeName: string, pairs: seq<string>, timeframe: string,
                    startDate: string, limit: int, tfMs: int, now: int)
      returns (r: Result<(), JsError>, calls: seq<(string, string)>)
      requires limit * tfMs > 0
      modifies this
      ensures Run(r, files, calls) == RunPairs(old(files), fetch, exchangeName, pairs, timeframe, startDate, limit * tfMs, now)
    {
      calls := [];
      var j := 0;
      while j < |pairs|
        invariant 0 <= j <= |pairs|
        invariant RunPairs(old(files), fetch, exchangeName, pairs, timeframe, startDate, limit * tfMs, now)
               == Then(calls, RunPairs(files, fetch, exchangeName, pairs[j..], timeframe, startDate, limit * tfMs, now))
      {
        assert pairs[j..][0] == pairs[j] && pairs[j..][1..] == pairs[j + 1..];
        var d := GetOhlcv(fetch, exchangeName, pairs[j], timeframe, startDate, limit, tfMs, now);
        RunPairsStep(files, fetch, exchangeName, pairs[j..], timeframe, startDate, limit * tfMs, now, d);
        if d.Err? {
          ThenThen(calls, [(timeframe, pairs[j])], Run(Err(d.error), files, []));
          return Err(d.error), calls + [(timeframe, pairs[j])];
        }
        ThenThen(calls, [(timeframe, pairs[j])],
                 RunPairs(files[d.value.path := d.value.rows], fetch, exchangeName, pairs[j + 1..], timeframe,
                          startDate, limit * tfMs, now));
        calls := calls + [(timeframe, pairs[j])];
        files := files[d.value.path := d.value.rows];
        j := j + 1;
      }
      assert pairs[j..] == [];
      r := Ok(());
    }

    /** `get_multi_ohlcv`: for each timeframe, for each pair, await `get_ohlcv` and
        write its file. */
    method GetMultiOhlcv(fetch: Oracle, exchangeName: string, pairs: seq<string>, timeframes: seq<string>,
                         startDate: string, limits: map<string, int>, tfMs: map<string, int>, now: int)
      returns (r: Result<(), JsError>, calls: seq<(string, string)>)
      requires Configured(exchangeName, timeframes, limits, tfMs)
      modifies this
      ensures Run(r, files, calls) == RunAll(old(files), fetch, exchangeName, pairs, timeframes, startDate, limits, tfMs, now)
    {
      calls := [];
      var i := 0;
      while i < |timeframes|
        invariant 0 <= i <= |timeframes|
        invariant Configured(exchangeName, timeframes[i..], limits, tfMs)
        invariant RunAll(old(files), fetch, exchangeName, pairs, timeframes, startDate, limits, tfMs, now)
               == Then(calls, RunAll(files, fetch, exchangeName, pairs, timeframes[i..], startDate, limits, tfMs, now))
      {
        var timeframe := timeframes[i];
        assert timeframes[i..][0] == timeframe && timeframes[i..][1..] == timeframes[i + 1..];
        RunAllStep(files, fetch, exchangeName, pairs, timeframes[i..], startDate, limits, tfMs, now);
        var res, inner := GetPairs(fetch, exchangeName, pairs, timeframe, startDate, limits[exchangeName],
                                   tfMs[timeframe], now);
        ThenThen(calls, inner,
                 if res.Err? then Run(res, files, [])
                 else RunAll(files, fetch, exchangeName, pairs, timeframes[i + 1..], startDate, limits, tfMs, now));
        calls := calls + inner;
        if res.Err? {
          return res, calls;
        }
        i := i + 1;
      }
      return Ok(()), calls;
    }
  }
}

=== FILE: js_date.dfy ===
/** The part of JavaScript's `Date` that the downloaders use: `Date.UTC(year, month,
    day)` for integer arguments, and the UTC calendar fields of a time value, with
    the proleptic Gregorian calendar and days of exactly 86 400 000 ms, as section
    21.4.1 of ECMA-262 defines them. */
module JsDate {

  import opened Wrappers
  import Paging

  const MsPerDay: int := 86400000

  /** TimeClip (section 21.4.1.31 of ECMA-262): beyond this many milliseconds from
      the epoch a time value is NaN. */
  const MaxTime: int := 8640000000000000

  predicate IsLeap(y: int)
  {
    y % 4 == 0 && (y % 100 != 0 || y % 400 == 0)
  }

  function DaysInYear(y: int): int
  {
    if IsLeap(y) then 366 else 365
  }

  /** Days of year `y` before the first of month `m` (1-based); `m == 13` gives the
      whole year. */
  function DaysBeforeMonth(y: int, m: int): int
    requires 1 <= m <= 13
  {
    var common :=
      if m == 1 then 0 else if m == 2 then 31 else if m == 3 then 59
      else if m == 4 then 90 else if m == 5 then 120 else if m == 6 then 151
      else if m == 7 then 181 else if m == 8 then 212 else if m == 9 then 243
      else if m == 10 then 273 else if m == 11 then 304 else if m == 12 then 334
      else 365;
    common + if IsLeap(y) && m > 2 then 1 else 0
  }

  function DaysInMonth(y: int, m: int): int
    requires 1 <= m <= 12
  {
    DaysBeforeMonth(y, m + 1) - DaysBeforeMonth(y, m)
  }

  lemma DaysBeforeMonthBounds(y: int, m: int)
    requires 1 <= m <= 12
    ensures 0 <= DaysBeforeMonth(y, m) < DaysBeforeMonth(y, m + 1) <= DaysBeforeMonth(y, 13) == DaysInYear(y)
  {
  }

  /** The day number (days since 1970-01-01) of January 1st of year `y`, by the
      closed formula of ECMA-262's DayFromYear. */
  function DayFromYear(y: int): int
  {
    365 * (y - 1970) + (y - 1969) / 4 - (y - 1901) / 100 + (y - 1601) / 400
  }

  /** Floor division by `d` steps up by one exactly where `x + 1` is a multiple. */
  lemma FloorStep(x: int, d: int)
    requires d > 0
    ensures (x + 1) / d == x / d + (if (x + 1) % d == 0 then 1 else 0)
  {
    var q, r := x / d, x % d;
    if r == d - 1 {
      assert x + 1 == (q + 1) * d + 0;
      DivMod(x + 1, d, q + 1, 0);
    } else {
      DivMod(x + 1, d, q, r + 1);
    }
  }

  /** Quotient and remainder are determined by `x == q * d + r`, `0 <= r < d`. */
  lemma DivMod(x: int, d: int, q: int, r: int)
    requires d > 0 && 0 <= r < d && x == q * d + r
    ensures x / d == q && x % d == r
  {
    Paging.DivIsQuotient(x, d, q);
  }

  /** Consecutive years are one year length apart. */
  lemma DayFromNextYear(y: int)
    ensures DayFromYear(y + 1) == DayFromYear(y) + DaysInYear(y)
  {
    FloorStep(y - 1969, 4);
    FloorStep(y - 1901, 100);
    FloorStep(y - 1601, 400);
    assert (y + 1 - 1969) % 4 == 0 <==> y % 4 == 0;
    assert (y + 1 - 1901) % 100 == 0 <==> y % 100 == 0;
    assert (y + 1 - 1601) % 400 == 0 <==> y % 400 == 0;
  }

  lemma {:induction false} DayFromYearMono(a: int, b: int)
    requires a < b
    ensures DayFromYear(a) + DaysInYear(a) <= DayFromYear(b)
    decreases b - a
  {
    DayFromNextYear(a);
    if a + 1 < b {
      DayFromYearMono(a + 1, b);
      DayFromNextYear(a + 1);
    }
  }

  /** The day number of day `d` (1-based) of month `m` of year `y`. */
  function DayNumber(y: int, m: int, d: int): int
    requires 1 <= m <= 12
  {
    DayFromYear(y) + DaysBeforeMonth(y, m) + d - 1
  }

  /** The year that holds day `n` counted from January 1st of year `y`, and the
      position of that day within its year. */
  function YearOfDay(y: int, n: int): (r: (int, int))
    ensures 0 <= r.1 < DaysInYear(r.0)
    ensures DayFromYear(r.0) + r.1 == DayFromYear(y) + n
    decreases (if n < 0 then 1 else 0), (if n < 0 then -n else n)
  {
    if n < 0 then
      DayFromNextYear(y - 1);
      YearOfDay(y - 1, n + DaysInYear(y - 1))
    else if n < DaysInYear(y) then (y, n)
    else
      DayFromNextYear(y);
      YearOfDay(y + 1, n - DaysInYear(y))
  }

  /** The month (1-based) and day of month (1-based) of day `doy` of year `y`,
      searching from month `m` on. */
  function MonthOfDay(y: int, doy: int, m: int): (r: (int, int))
    requires 1 <= m <= 12 && DaysBeforeMonth(y, m) <= doy < DaysInYear(y)
    ensures m <= r.0 <= 12 && 1 <= r.1 <= DaysInMonth(y, r.0)
    ensures DaysBeforeMonth(y, r.0) + r.1 - 1 == doy
    decreases 12 - m
  {
    if m == 12 || doy < DaysBeforeMonth(y, m + 1) then (m, doy - DaysBeforeMonth(y, m) + 1)
    else MonthOfDay(y, doy, m + 1)
  }

  /** What `getUTCFullYear`, `getUTCMonth() + 1`, `getUTCDate`, `getUTCHours` and
      `getUTCMinutes` return. */
  datatype UtcFields = UtcFields(year: int, month: int, day: int, hours: int, minutes: int)

  function Fields(t: int): (f: UtcFields)
    ensures 1 <= f.month <= 12 && 1 <= f.day <= DaysInMonth(f.year, f.month)
    ensures 0 <= f.hours < 24 && 0 <= f.minutes < 60
    ensures DayNumber(f.year, f.month, f.day) == t / MsPerDay
  {
    var yd := YearOfDay(1970, t / MsPerDay);
    var md := MonthOfDay(yd.0, yd.1, 1);
    UtcFields(yd.0, md.0, md.1, (t / 3600000) % 24, (t / 60000) % 60)
  }

  /** `Date.UTC(year, month0, day)` (month 0-based) for integer arguments: a time
      value, or None for NaN. Years 0 to 99 stand for 1900 to 1999; months outside
      0..11 roll over into neighbouring years, days outside the month into
      neighbouring months. */
  function DateUtc(year: int, month0: int, day: int): (r: Option<int>)
    ensures r.Some? ==> r.value % MsPerDay == 0 && -MaxTime <= r.value <= MaxTime
  {
    var yr := if 0 <= year <= 99 then 1900 + year else year;
    var ym := yr + month0 / 12;
    var mn := month0 % 12;
    var t := DayNumber(ym, mn + 1, day) * 86400000;  // MsPerDay, written out so that the product stays linear
    if -MaxTime <= t <= MaxTime then Some(t) else None
  }

  // ---------------------------------------------------------------------------
  // Facts used by the round-trip lemmas

  lemma {:induction false} YearOfDayUnique(y: int, doy: int)
    requires 0 <= doy < DaysInYear(y)
    ensures YearOfDay(1970, DayFromYear(y) + doy) == (y, doy)
  {
    var r := YearOfDay(1970, DayFromYear(y) + doy);
    if r.0 < y {
      DayFromYearMono(r.0, y);
    } else if r.0 > y {
      DayFromYearMono(y, r.0);
    }
  }

  lemma {:induction false} MonthOfDayUnique(y: int, m: int, d: int, from: int)
    requires 1 <= from <= m <= 12 && 1 <= d <= DaysInMonth(y, m)
    ensures MonthOfDay(y, DaysBeforeMonth(y, m) + d - 1, from) == (m, d)
    decreases 12 - from
  {
    if from < m {
      MonthOfDayUnique(y, m, d, from + 1);
    }
  }

  /** The calendar fields of midnight UTC of a given day. */
  lemma FieldsOfMidnight(y: int, m: int, d: int)
    requires 1 <= m <= 12 && 1 <= d <= DaysInMonth(y, m)
    ensures Fields(DayNumber(y, m, d) * MsPerDay) == UtcFields(y, m, d, 0, 0)
  {
    var n := DayNumber(y, m, d);
    var t := n * MsPerDay;
    MulDivExact(n, MsPerDay);
    assert t == (n * 24) * 3600000;
    MulDivExact(n * 24, 3600000);
    MulDivExact(n, 24);
    assert t == (n * 24 * 60) * 60000;
    MulDivExact(n * 24 * 60, 60000);
    MulDivExact(n * 24, 60);
    YearOfDayUnique(y, DaysBeforeMonth(y, m) + d - 1);
    MonthOfDayUnique(y, m, d, 1);
  }

  lemma MulDivExact(q: int, d: int)
    requires d > 0
    ensures (q * d) / d == q && (q * d) % d == 0
  {
    Paging.DivIsQuotient(q * d, d, q);
  }

  /** A time value at or after the epoch falls in 1970 or later. */
  lemma YearOfNonNegative(t: int)
    requires t >= 0
    ensures Fields(t).year >= 1970
  {
    var f := Fields(t);
    if f.year < 1970 {
      DayFromYearMono(f.year, 1970);
    }
  }
}

=== FILE: paging.dfy ===
/** Page starts of a download: both downloaders cut `[start, end)` into windows of
    `step` milliseconds (`limit` candles of one interval each) and fetch one page per
    window start. */
module Paging {

  /** The window starts: `start`, then `start + step`, `start + 2 * step`, ... for as
      long as they stay below `end`. The first start is always there, even when
      `start >= end`. */
  function Windows(start: int, end: int, step: int): seq<int>
    requires step > 0
    decreases if start < end then end - start else 0
  {
    if start + step < end then [start] + Windows(start + step, end, step) else [start]
  }

  lemma WindowsNext(start: int, end: int, step: int)
    requires step > 0 && start + step < end
    ensures Windows(start, end, step) == [start] + Windows(start + step, end, step)
  {
  }

  lemma WindowsLast(start: int, end: int, step: int)
    requires step > 0 && start + step >= end
    ensures Windows(start, end, step) == [start]
  {
  }

  /** Number of windows of `step` needed to cover `n > 0` milliseconds. */
  function CeilDiv(n: int, step: int): int
    requires step > 0
  {
    (n + step - 1) / step
  }

  /** The windows are evenly spaced from `start`, every start after the first lies
      below `end`, and the last window reaches `end`: together they cover
      `[start, end)` with neither gap nor overlap. */
  lemma {:induction false} WindowsShape(start: int, end: int, step: int)
    requires step > 0
    ensures var w := Windows(start, end, step);
      |w| >= 1 && w[0] == start &&
      (forall i :: 0 <= i < |w| ==> w[i] == start + i * step) &&
      (forall i :: 0 < i < |w| ==> w[i] < end) &&
      w[|w| - 1] + step >= end
    decreases if start < end then end - start else 0
  {
    var w := Windows(start, end, step);
    if start + step < end {
      WindowsShape(start + step, end, step);
      var v := Windows(start + step, end, step);
      assert w == [start] + v;
      forall i | 0 < i < |w| ensures w[i] == start + i * step {
        assert w[i] == v[i - 1] == start + step + (i - 1) * step;
      }
    }
  }

  /** Strictly increasing window starts. */
  lemma WindowsIncreasing(start: int, end: int, step: int)
    requires step > 0
    ensures var w := Windows(start, end, step);
      forall i, j :: 0 <= i < j < |w| ==> w[i] < w[j]
  {
    var w := Windows(start, end, step);
    WindowsShape(start, end, step);
    forall i, j | 0 <= i < j < |w| ensures w[i] < w[j] {
      MulStrictMono(i, j, step);
    }
  }

  /** Exactly one window when there is nothing to cover, otherwise
      `ceil((end - start) / step)` windows. */
  lemma {:induction false} WindowsCount(start: int, end: int, step: int)
    requires step > 0
    ensures |Windows(start, end, step)| == if start < end then CeilDiv(end - start, step) else 1
    decreases if start < end then end - start else 0
  {
    if start < end {
      if start + step < end {
        WindowsCount(start + step, end, step);
        CeilDivStep(end - start, step);
      } else {
        CeilDivOne(end - start, step);
      }
    }
  }

  lemma MulStrictMono(i: int, j: int, step: int)
    requires 0 <= i < j && step > 0
    ensures i * step < j * step
  {
    assert j * step == i * step + (j - i) * step;
  }

  lemma CeilDivOne(n: int, step: int)
    requires 0 < n <= step
    ensures CeilDiv(n, step) == 1
  {
    DivIsQuotient(n + step - 1, step, 1);
  }

  lemma CeilDivStep(n: int, step: int)
    requires step > 0 && n > step
    ensures CeilDiv(n, step) == CeilDiv(n - step, step) + 1
  {
    var q := (n - step + step - 1) / step;
    var r := (n - step + step - 1) % step;
    assert n - step + step - 1 == q * step + r;
    assert n + step - 1 == (q + 1) * step + r;
    DivIsQuotient(n + step - 1, step, q + 1);
  }

  /** `x / d == q` when `x` lies in `[q * d, q * d + d)`. */
  lemma DivIsQuotient(x: int, d: int, q: int)
    requires d > 0 && q * d <= x < q * d + d
    ensures x / d == q
  {
    var p := x / d;
    assert x == p * d + x % d;
    if p < q {
      assert (p + 1) * d <= q * d by { MulMono(p + 1, q, d); }
    } else if p > q {
      assert (q + 1) * d <= p * d by { MulMono(q + 1, p, d); }
    }
  }

  lemma MulMono(a: int, b: int, d: int)
    requires a <= b && d > 0
    ensures a * d <= b * d
  {
    assert b * d == a * d + (b - a) * d;
  }
}

=== FILE: quick_analysis.dfy ===
/** The quick-analysis downloader: keep the exchange's plain USDT markets, and for
    each fetch one page of `limit` candles ending now and write it to
    `./database/quick_analysis/<BASE>-USDT.csv`, counting the downloads that
    settle. The in-place dedup routine that ships in the same script is the one
    modelled as `DownloadData.EliminateDoubleTs`; the script never calls it. */
module QuickAnalysis {

  import opened Candles
  import opened Text
  import Paging
  import DownloadData

  // ---------------------------------------------------------------------------
  // The symbol filter

  /** JavaScript `xs.filter(keep)`. */
  function Filter(xs: seq<string>, keep: string -> bool): (r: seq<string>)
    ensures forall x :: x in r <==> x in xs && keep(x)
    ensures |r| <= |xs|
  {
    if xs == [] then [] else (if keep(xs[0]) then [xs[0]] else []) + Filter(xs[1..], keep)
  }

  lemma {:induction false} FilterSubseq(xs: seq<string>, keep: string -> bool)
    ensures Subseq(Filter(xs, keep), xs)
  {
    if xs != [] {
      var tail := xs[1..];
      FilterSubseq(tail, keep);
      assert xs == [xs[0]] + tail;
      if keep(xs[0]) {
        SubseqCons(xs[0], Filter(tail, keep), tail);
      } else {
        assert Filter(xs, keep) == Filter(tail, keep);
        SubseqSkip(Filter(tail, keep), xs[0], tail);
      }
    }
  }

  /** A filter that every element passes changes nothing. */
  lemma {:induction false} FilterAll(xs: seq<string>, keep: string -> bool)
    requires forall x :: x in xs ==> keep(x)
    ensures Filter(xs, keep) == xs
  {
    if xs != [] {
      FilterAll(xs[1..], keep);
      assert xs == [xs[0]] + xs[1..];
    }
  }

  /** Two filters in a row are one filter by the conjunction of their tests. */
  lemma {:induction false} FilterFuse(xs: seq<string>, p: string -> bool, q: string -> bool, both: string -> bool)
    requires forall x :: both(x) == (p(x) && q(x))
    ensures Filter(Filter(xs, p), q) == Filter(xs, both)
  {
    if xs != [] {
      var tail := xs[1..];
      FilterFuse(tail, p, q, both);
      if p(xs[0]) {
        var once := Filter(xs, p);
        assert once == [xs[0]] + Filter(tail, p);
        assert once[0] == xs[0] && once[1..] == Filter(tail, p);
      } else {
        assert Filter(xs, p) == Filter(tail, p);
      }
    }
  }

  /** `symbol.substr(-4) == "USDT"`. */
  predicate QuotedInUsdt(symbol: string)
  {
    SubstrFromEnd(symbol, 4) == "USDT"
  }

  /** `symbol => symbol.includes(marker) == false`. */
  function Lacks(marker: string): string -> bool
  {
    symbol => !Contains(symbol, marker)
  }

  /** A symbol the downloader keeps: quoted in USDT and free of the four
      leveraged-token markers. */
  predicate Wanted(symbol: string)
  {
    QuotedInUsdt(symbol) && !Contains(symbol, "BULL") && !Contains(symbol, "DOWN")
    && !Contains(symbol, "UP") && !Contains(symbol, "BEAR")
  }

  /** `symbols_usdt`: the chain of five filters over `exchange.symbols`. */
  function UsdtSymbols(symbols: seq<string>): seq<string>
  {
    Filter(Filter(Filter(Filter(Filter(symbols, QuotedInUsdt), Lacks("BULL")), Lacks("DOWN")), Lacks("UP")),
           Lacks("BEAR"))
  }

  /** The chain keeps exactly what one filter by `Wanted` keeps, with the same
      order and multiplicities. */
  lemma UsdtSymbolsIsOneFilter(symbols: seq<string>)
    ensures UsdtSymbols(symbols) == Filter(symbols, Wanted)
  {
    var noBull: string -> bool := x => QuotedInUsdt(x) && !Contains(x, "BULL");
    var noDown: string -> bool := x => noBull(x) && !Contains(x, "DOWN");
    var noUp: string -> bool := x => noDown(x) && !Contains(x, "UP");
    FilterFuse(symbols, QuotedInUsdt, Lacks("BULL"), noBull);
    FilterFuse(symbols, noBull, Lacks("DOWN"), noDown);
    FilterFuse(symbols, noDown, Lacks("UP"), noUp);
    FilterFuse(symbols, noUp, Lacks("BEAR"), Wanted);
  }

  /** A symbol is kept exactly when it is a market of the exchange and wanted. */
  lemma UsdtSymbolsMembers(symbols: seq<string>)
    ensures forall x :: x in UsdtSymbols(symbols) <==> x in symbols && Wanted(x)
  {
    UsdtSymbolsIsOneFilter(symbols);
  }

  /** The kept symbols appear in the exchange's order. */
  lemma UsdtSymbolsSubseq(symbols: seq<string>)
    ensures Subseq(UsdtSymbols(symbols), symbols)
  {
    UsdtSymbolsIsOneFilter(symbols);
    FilterSubseq(symbols, Wanted);
  }

  /** Filtering the filtered list again changes nothing. */
  lemma UsdtSymbolsIdempotent(symbols: seq<string>)
    ensures UsdtSymbols(UsdtSymbols(symbols)) == UsdtSymbols(symbols)
  {
    var kept := UsdtSymbols(symbols);
    UsdtSymbolsMembers(symbols);
    UsdtSymbolsIsOneFilter(kept);
    FilterAll(kept, Wanted);
  }

  /** The "UP" marker is matched anywhere in the symbol, so a plain market whose
      base holds those two letters is dropped with the leveraged tokens. */
  lemma SuperUsdtDropped(symbols: seq<string>)
    ensures "SUPER/USDT" !in UsdtSymbols(symbols)
  {
    assert OccursAt("SUPER/USDT", "UP", 1);
    UsdtSymbolsMembers(symbols);
  }

  lemma LacksMissingChar(s: string, marker: string, c: char)
    requires c in marker && c !in s
    ensures !Contains(s, marker)
  {
    forall i | 0 <= i <= |s| - |marker| ensures !OccursAt(s, marker, i) {
      assert forall x :: x in s[i..i + |marker|] ==> x in s;
    }
  }

  /** An ordinary market is kept. */
  lemma BtcUsdtKept(symbols: seq<string>)
    requires "BTC/USDT" in symbols
    ensures "BTC/USDT" in UsdtSymbols(symbols)
  {
    LacksMissingChar("BTC/USDT", "BULL", 'L');
    LacksMissingChar("BTC/USDT", "DOWN", 'W');
    LacksMissingChar("BTC/USDT", "UP", 'P');
    LacksMissingChar("BTC/USDT", "BEAR", 'E');
    UsdtSymbolsMembers(symbols);
  }

  // ---------------------------------------------------------------------------
  // One symbol

  /** `since_date`: `limit` candles of `tfMs` milliseconds before `now`. */
  function SinceDate(now: int, limit: int, tfMs: int): int
  {
    now - limit * tfMs
  }

  /** The one page asked for reaches exactly to `now`: split into windows of its
      own length it is a single window. */
  lemma OnePageBack(now: int, limit: int, tfMs: int)
    requires limit * tfMs > 0
    ensures SinceDate(now, limit, tfMs) + limit * tfMs == now
    ensures Paging.Windows(SinceDate(now, limit, tfMs), now, limit * tfMs) == [SinceDate(now, limit, tfMs)]
  {
    Paging.WindowsLast(SinceDate(now, limit, tfMs), now, limit * tfMs);
  }

  /** The directory the quick-analysis files go to. */
  const QuickDir: string := "./database/quick_analysis/"

  /** The file of a symbol: only its first `/` becomes `-`. */
  function QuickPath(symbol: string): string
  {
    QuickDir + ReplaceFirst(symbol, '/', '-') + ".csv"
  }

  lemma QuickPathOfPair()
    ensures QuickPath("BTC/USDT") == QuickDir + "BTC-USDT" + ".csv"
  {
    assert "BTC/USDT" == "BTC" + ['/'] + "USDT";
    ReplaceFirstAt("BTC", "USDT", '/', '-');
    assert "BTC" + ['-'] + "USDT" == "BTC-USDT";
  }

  /** Symbols without a `-` never share a file. */
  lemma QuickPathInjective(a: string, b: string)
    requires '-' !in a && '-' !in b && QuickPath(a) == QuickPath(b)
    ensures a == b
  {
    var prefix := QuickDir;
    var ra := ReplaceFirst(a, '/', '-');
    var rb := ReplaceFirst(b, '/', '-');
    assert |ra| == |a| && |rb| == |b|;
    assert ra == QuickPath(a)[|prefix|..|prefix| + |ra|];
    assert rb == QuickPath(b)[|prefix|..|prefix| + |rb|];
    ReplaceFirstInjective(a, b, '/', '-');
  }

  /** How a `dl_one_symbol` promise ends: it resolves, with whether the file was
      written, once the page has arrived; if the fetch is rejected nothing ever
      resolves it. */
  datatype Settle = Pending | Resolved(ok: bool, path: string, rows: seq<Candle>)

  /** `dl_one_symbol` at time `now`; `writeOk` is whether writing the file
      succeeds. */
  function DlOneSymbol(fetch: Oracle, symbol: string, timeframe: string, limit: int, tfMs: int, now: int,
                       writeOk: bool): (r: Settle)
    ensures r.Pending? <==> fetch(symbol, timeframe, SinceDate(now, limit, tfMs), 1) == Failure
    ensures r.Resolved? ==>
      r.ok == writeOk && r.path == QuickPath(symbol) &&
      fetch(symbol, timeframe, now - limit * tfMs, 1) == Page(r.rows)
  {
    match fetch(symbol, timeframe, SinceDate(now, limit, tfMs), 1)
    case Failure => Pending
    case Page(rows) => Resolved(writeOk, QuickPath(symbol), rows)
  }

  // ---------------------------------------------------------------------------
  // All symbols

  /** The outcomes of the downloads started for `symbols`, the `k`-th at time
      `clock(k)`; `writes` says which file writes succeed. */
  function Settles(fetch: Oracle, symbols: seq<string>, timeframe: string, limit: int, tfMs: int,
                   clock: nat -> int, writes: string -> bool): (r: seq<Settle>)
    ensures |r| == |symbols|
    decreases |symbols|
  {
    if symbols == [] then []
    else
      var k := |symbols| - 1;
      Settles(fetch, symbols[..k], timeframe, limit, tfMs, clock, writes)
      + [DlOneSymbol(fetch, symbols[k], timeframe, limit, tfMs, clock(k), writes(QuickPath(symbols[k])))]
  }

  lemma {:induction false} SettlesAt(fetch: Oracle, symbols: seq<string>, timeframe: string, limit: int, tfMs: int,
                                     clock: nat -> int, writes: string -> bool, i: int)
    requires 0 <= i < |symbols|
    ensures Settles(fetch, symbols, timeframe, limit, tfMs, clock, writes)[i]
         == DlOneSymbol(fetch, symbols[i], timeframe, limit, tfMs, clock(i), writes(QuickPath(symbols[i])))
    decreases |symbols|
  {
    var k := |symbols| - 1;
    if i < k {
      SettlesAt(fetch, symbols[..k], timeframe, limit, tfMs, clock, writes, i);
    }
  }

  lemma SettlesSnoc(fetch: Oracle, symbols: seq<string>, timeframe: string, limit: int, tfMs: int,
                    clock: nat -> int, writes: string -> bool, i: int)
    requires 0 <= i < |symbols|
    ensures Settles(fetch, symbols[..i + 1], timeframe, limit, tfMs, clock, writes)
         == Settles(fetch, symbols[..i], timeframe, limit, tfMs, clock, writes)
            + [DlOneSymbol(fetch, symbols[i], timeframe, limit, tfMs, clock(i), writes(QuickPath(symbols[i])))]
  {
    assert symbols[..i + 1][..i] == symbols[..i];
  }

  /** `current_request` at the end: one per settled promise. */
  function Completed(settles: seq<Settle>): nat
  {
    if settles == [] then 0
    else Completed(settles[..|settles| - 1]) + (if settles[|settles| - 1].Resolved? then 1 else 0)
  }

  /** The counter never passes the total, and reaches it exactly when every
      promise settles. */
  lemma {:induction false} CompletedBounds(settles: seq<Settle>)
    ensures Completed(settles) <= |settles|
    ensures Completed(settles) == |settles| <==> forall i :: 0 <= i < |settles| ==> settles[i].Resolved?
  {
    if settles != [] {
      var k := |settles| - 1;
      CompletedBounds(settles[..k]);
      if settles[k].Resolved? {
        forall i | 0 <= i < |settles| && (forall j :: 0 <= j < k ==> settles[..k][j].Resolved?)
          ensures settles[i].Resolved?
        {
          if i < k {
            assert settles[..k][i] == settles[i];
          }
        }
      }
    }
  }

  /** The progress line reaches `total_request/total_request` exactly when no
      fetch was rejected, however the writes went. */
  lemma AllCoinsCounted(fetch: Oracle, symbols: seq<string>, timeframe: string, limit: int, tfMs: int,
                        clock: nat -> int, writes: string -> bool)
    ensures Completed(Settles(fetch, symbols, timeframe, limit, tfMs, clock, writes)) == |symbols|
        <==> forall i :: 0 <= i < |symbols| ==> fetch(symbols[i], timeframe, SinceDate(clock(i), limit, tfMs), 1).Page?
  {
    var settles := Settles(fetch, symbols, timeframe, limit, tfMs, clock, writes);
    CompletedBounds(settles);
    forall i | 0 <= i < |symbols|
      ensures settles[i].Resolved? <==> fetch(symbols[i], timeframe, SinceDate(clock(i), limit, tfMs), 1).Page?
    {
      SettlesAt(fetch, symbols, timeframe, limit, tfMs, clock, writes, i);
    }
  }

  /** The files after the downloads: each written page lands on its path, later
      writes over earlier ones. */
  function Written(files: DownloadData.Store, settles: seq<Settle>): DownloadData.Store
  {
    if settles == [] then files
    else
      var last := settles[|settles| - 1];
      var before := Written(files, settles[..|settles| - 1]);
      if last.Resolved? && last.ok then before[last.path := last.rows] else before
  }

  /** A file no successful write aimed at is as it was. */
  lemma {:induction false} WrittenElsewhere(files: DownloadData.Store, settles: seq<Settle>, p: string)
    requires forall i :: 0 <= i < |settles| && settles[i].Resolved? && settles[i].ok ==> settles[i].path != p
    ensures p in Written(files, settles) <==> p in files
    ensures p in files ==> Written(files, settles)[p] == files[p]
  {
    if settles != [] {
      var k := |settles| - 1;
      forall i | 0 <= i < k && settles[..k][i].Resolved? && settles[..k][i].ok ensures settles[..k][i].path != p {
        assert settles[..k][i] == settles[i];
      }
      WrittenElsewhere(files, settles[..k], p);
    }
  }

  /** A successful write that no later one overwrites is what the file holds. */
  lemma {:induction false} WrittenLast(files: DownloadData.Store, settles: seq<Settle>, i: int)
    requires 0 <= i < |settles| && settles[i].Resolved? && settles[i].ok
    requires forall j :: i < j < |settles| && settles[j].Resolved? && settles[j].ok ==> settles[j].path != settles[i].path
    ensures settles[i].path in Written(files, settles)
    ensures Written(files, settles)[settles[i].path] == settles[i].rows
  {
    var k := |settles| - 1;
    if i < k {
      var prefix := settles[..k];
      forall j | i < j < |prefix| && prefix[j].Resolved? && prefix[j].ok ensures prefix[j].path != prefix[i].path {
        assert prefix[j] == settles[j];
      }
      WrittenLast(files, prefix, i);
    }
  }

  /** With distinct symbols free of `-`, the file of a symbol whose page arrived
      and was written holds that page, and the file of one whose fetch was
      rejected is left as it was. */
  lemma SymbolFile(files: DownloadData.Store, fetch: Oracle, symbols: seq<string>, timeframe: string, limit: int,
                   tfMs: int, clock: nat -> int, writes: string -> bool, i: int)
    requires 0 <= i < |symbols|
    requires forall a, b :: 0 <= a < b < |symbols| ==> symbols[a] != symbols[b]
    requires forall a :: 0 <= a < |symbols| ==> '-' !in symbols[a]
    ensures var after := Written(files, Settles(fetch, symbols, timeframe, limit, tfMs, clock, writes));
      var path := QuickPath(symbols[i]);
      match fetch(symbols[i], timeframe, SinceDate(clock(i), limit, tfMs), 1)
      case Page(rows) => writes(path) ==> path in after && after[path] == rows
      case Failure => (path in after <==> path in files) && (path in files ==> after[path] == files[path])
  {
    var settles := Settles(fetch, symbols, timeframe, limit, tfMs, clock, writes);
    var path := QuickPath(symbols[i]);
    forall j | 0 <= j < |settles| && j != i && settles[j].Resolved? ensures settles[j].path != path {
      SettlesAt(fetch, symbols, timeframe, limit, tfMs, clock, writes, j);
      if settles[j].path == path {
        QuickPathInjective(symbols[j], symbols[i]);
      }
    }
    SettlesAt(fetch, symbols, timeframe, limit, tfMs, clock, writes, i);
    if settles[i].Resolved? && settles[i].ok {
      WrittenLast(files, settles, i);
    } else {
      WrittenElsewhere(files, settles, path);
    }
  }

  /** One more settled promise: the counter and the files take one step. */
  lemma SettleStep(files: DownloadData.Store, settles: seq<Settle>, outcome: Settle)
    ensures Completed(settles + [outcome]) == Completed(settles) + if outcome.Resolved? then 1 else 0
    ensures Written(files, settles + [outcome])
         == if outcome.Resolved? && outcome.ok then Written(files, settles)[outcome.path := outcome.rows]
            else Written(files, settles)
  {
    assert (settles + [outcome])[..|settles|] == settles;
  }

  /** `get_all_coin`: filter the markets, then start one download per kept
      symbol, the `k`-th at time `clock(k)`, counting every promise that
      resolves. The files live in `db`. */
  method GetAllCoin(db: DownloadData.Database, fetch: Oracle, symbols: seq<string>, timeframe: string, limit: int,
                    tfMs: int, clock: nat -> int, writes: string -> bool)
    returns (totalRequest: nat, currentRequest: nat)
    modifies db
    ensures totalRequest == |UsdtSymbols(symbols)|
    ensures var settles := Settles(fetch, UsdtSymbols(symbols), timeframe, limit, tfMs, clock, writes);
      currentRequest == Completed(settles) && db.files == Written(old(db.files), settles)
  {
    var symbolsUsdt := UsdtSymbols(symbols);
    totalRequest := |symbolsUsdt|;
    currentRequest := 0;
    ghost var settles: seq<Settle> := [];
    var i := 0;
    while i < |symbolsUsdt|
      invariant 0 <= i <= |symbolsUsdt|
      invariant settles == Settles(fetch, symbolsUsdt[..i], timeframe, limit, tfMs, clock, writes)
      invariant currentRequest == Completed(settles)
      invariant db.files == Written(old(db.files), settles)
    {
      var symbol := symbolsUsdt[i];
      var outcome := DlOneSymbol(fetch, symbol, timeframe, limit, tfMs, clock(i), writes(QuickPath(symbol)));
      SettlesSnoc(fetch, symbolsUsdt, timeframe, limit, tfMs, clock, writes, i);
      SettleStep(old(db.files), settles, outcome);
      settles := settles + [outcome];
      if outcome.Resolved? {
        currentRequest := currentRequest + 1;
        if outcome.ok {
          db.files := db.files[outcome.path := outcome.rows];
        }
      }
      i := i + 1;
    }
    assert symbolsUsdt[..i] == symbolsUsdt;
  }
}

=== FILE: text.dfy ===
/** The string operations the downloaders rely on: Python's `str.replace` and
    `str.lower`, JavaScript's `String.prototype.replace` with a string pattern,
    `split`, `includes`, `substr(-n)`, the `Number(...)` coercion of a field and the
    decimal rendering of an integer in a template literal. */
module Text {

  import opened Wrappers

  /** Python `s.replace(from, to)` for one-character arguments: every occurrence. */
  function ReplaceAll(s: string, from: char, to: char): (r: string)
    ensures |r| == |s|
    ensures forall i :: 0 <= i < |s| ==> r[i] == if s[i] == from then to else s[i]
  {
    if s == [] then [] else [if s[0] == from then to else s[0]] + ReplaceAll(s[1..], from, to)
  }

  /** JavaScript `s.indexOf(c)`: the first position of `c`, or -1. */
  function IndexOf(s: string, c: char): (k: int)
    ensures -1 <= k < |s|
    ensures k == -1 <==> c !in s
    ensures k >= 0 ==> s[k] == c && c !in s[..k]
  {
    if s == [] then -1
    else if s[0] == c then 0
    else
      var k := IndexOf(s[1..], c);
      assert s[1..][..if k >= 0 then k else 0] == s[1..if k >= 0 then k + 1 else 1];
      assert k >= 0 ==> s[..k + 1] == [s[0]] + s[1..][..k];
      if k == -1 then -1 else k + 1
  }

  /** JavaScript `s.replace(from, to)` with a one-character string pattern: only the
      first occurrence. */
  function ReplaceFirst(s: string, from: char, to: char): (r: string)
    ensures from !in s ==> r == s
    ensures from in s ==>
      var k := IndexOf(s, from);
      r == s[..k] + [to] + s[k + 1..]
  {
    var k := IndexOf(s, from);
    if k < 0 then s else s[..k] + [to] + s[k + 1..]
  }

  /** The two `replace` flavours agree exactly on strings with at most one
      occurrence of the replaced character. */
  lemma ReplaceFirstAgreesWithAll(s: string, from: char, to: char)
    requires from != to
    ensures ReplaceFirst(s, from, to) == ReplaceAll(s, from, to) <==> multiset(s)[from] <= 1
  {
    if from in s {
      CountAfterFirst(s, from);
      var k := IndexOf(s, from);
      if from in s[k + 1..] {
        SecondOccurrenceKept(s, from, to);
      } else {
        SingleOccurrenceAgrees(s, from, to);
      }
    } else {
      ReplaceAllAbsent(s, from, to);
    }
  }

  lemma SecondOccurrenceKept(s: string, from: char, to: char)
    requires from != to && from in s && from in s[IndexOf(s, from) + 1..]
    ensures ReplaceFirst(s, from, to) != ReplaceAll(s, from, to)
  {
    var k := IndexOf(s, from);
    var j :| 0 <= j < |s[k + 1..]| && s[k + 1..][j] == from;
    assert ReplaceFirst(s, from, to)[k + 1 + j] == from;
    assert ReplaceAll(s, from, to)[k + 1 + j] == to;
  }

  lemma SingleOccurrenceAgrees(s: string, from: char, to: char)
    requires from in s && from !in s[IndexOf(s, from) + 1..]
    ensures ReplaceFirst(s, from, to) == ReplaceAll(s, from, to)
  {
    var k := IndexOf(s, from);
    var first := ReplaceFirst(s, from, to);
    var all := ReplaceAll(s, from, to);
    forall i | 0 <= i < |s| ensures first[i] == all[i] {
      if i < k {
        assert s[i] in s[..k];
      } else if i > k {
        assert s[i] == s[k + 1..][i - k - 1];
      }
    }
  }

  /** Replacing the first `from` by a character `to` the string did not hold is
      undone by replacing the first `to` back: the replacement loses nothing. */
  lemma ReplaceFirstUndo(s: string, from: char, to: char)
    requires to !in s
    ensures ReplaceFirst(ReplaceFirst(s, from, to), to, from) == s
  {
    if from in s {
      var k := IndexOf(s, from);
      var r := ReplaceFirst(s, from, to);
      assert r[..k] == s[..k];
      IndexOfAt(r, to, k);
      assert r[k + 1..] == s[k + 1..];
    }
  }

  /** The first occurrence is the position that holds `c` with no `c` before it. */
  lemma {:induction false} IndexOfAt(s: string, c: char, k: int)
    requires 0 <= k < |s| && s[k] == c && c !in s[..k]
    ensures IndexOf(s, c) == k
  {
    if k > 0 {
      assert s[0] in s[..k];
      assert s[1..][..k - 1] == s[1..k];
      assert forall x :: x in s[1..k] ==> x in s[..k];
      IndexOfAt(s[1..], c, k - 1);
    }
  }

  /** The first `from` of `a + [from] + b`, with no `from` in `a`, is the one
      replaced. */
  lemma ReplaceFirstAt(a: string, b: string, from: char, to: char)
    requires from !in a
    ensures ReplaceFirst(a + [from] + b, from, to) == a + [to] + b
  {
    var s := a + [from] + b;
    assert s[..|a|] == a && s[|a| + 1..] == b;
    IndexOfAt(s, from, |a|);
  }

  /** Two strings free of `to` that share a replaced form are the same string. */
  lemma ReplaceFirstInjective(a: string, b: string, from: char, to: char)
    requires to !in a && to !in b
    requires ReplaceFirst(a, from, to) == ReplaceFirst(b, from, to)
    ensures a == b
  {
    ReplaceFirstUndo(a, from, to);
    ReplaceFirstUndo(b, from, to);
  }

  lemma ReplaceAllAbsent(s: string, from: char, to: char)
    requires from !in s
    ensures ReplaceAll(s, from, to) == s
  {
    var all := ReplaceAll(s, from, to);
    forall i | 0 <= i < |s| ensures all[i] == s[i] {
      assert s[i] in s;
    }
  }

  lemma CountAfterFirst(s: string, c: char)
    requires c in s
    ensures var k := IndexOf(s, c);
      multiset(s)[c] == 1 + multiset(s[k + 1..])[c]
  {
    var k := IndexOf(s, c);
    assert s == s[..k] + [c] + s[k + 1..];
    assert multiset(s) == multiset(s[..k]) + multiset{c} + multiset(s[k + 1..]);
  }

  /** The KELVIN SIGN, U+212A, the one character outside ASCII that Python's
      `lower()` turns into a single ASCII letter. */
  const KelvinSign: char := '\U{212A}'

  function LowerChar(c: char): char
  {
    if 'A' <= c <= 'Z' then (c as int + 32) as char
    else if c == KelvinSign then 'k'
    else c
  }

  /** Python `s.lower()` on ASCII letters and the KELVIN SIGN. */
  function ToLower(s: string): (r: string)
    ensures |r| == |s|
    ensures forall i :: 0 <= i < |s| ==> r[i] == LowerChar(s[i])
    ensures forall i :: 0 <= i < |r| ==> !('A' <= r[i] <= 'Z')
  {
    if s == [] then [] else [LowerChar(s[0])] + ToLower(s[1..])
  }

  lemma ToLowerIdempotent(s: string)
    ensures ToLower(ToLower(s)) == ToLower(s)
  {
  }

  /** JavaScript `s.includes(sub)`. */
  predicate Contains(s: string, sub: string)
  {
    exists i :: 0 <= i <= |s| - |sub| && OccursAt(s, sub, i)
  }

  predicate OccursAt(s: string, sub: string, i: int)
    requires 0 <= i <= |s| - |sub|
  {
    s[i..i + |sub|] == sub
  }

  /** JavaScript `s.substr(-n)`: the last `n` characters, or all of a shorter string. */
  function SubstrFromEnd(s: string, n: nat): (r: string)
    ensures |s| >= n ==> |r| == n && s == s[..|s| - n] + r
    ensures |s| < n ==> r == s
  {
    if |s| >= n then s[|s| - n..] else s
  }

  // ---------------------------------------------------------------------------
  // Decimal digits

  predicate IsDigit(c: char)
  {
    '0' <= c <= '9'
  }

  predicate AllDigits(s: string)
  {
    forall i :: 0 <= i < |s| ==> IsDigit(s[i])
  }

  function DigitChar(d: int): char
    requires 0 <= d < 10
  {
    ('0' as int + d) as char
  }

  /** The decimal digits of `n`, without leading zeros. */
  function NatToString(n: nat): (r: string)
    ensures |r| >= 1 && AllDigits(r)
    ensures |r| > 1 ==> r[0] != '0'
  {
    if n < 10 then [DigitChar(n)] else NatToString(n / 10) + [DigitChar(n % 10)]
  }

  /** How a template literal renders an integer: a minus sign for negatives. */
  function IntToString(i: int): (r: string)
    ensures i >= 0 ==> r == NatToString(i)
    ensures i < 0 ==> r == "-" + NatToString(-i)
  {
    if i < 0 then "-" + NatToString(-i) else NatToString(i)
  }

  /** The value of a string of decimal digits. */
  function ParseDigits(s: string): nat
    requires AllDigits(s)
  {
    if s == [] then 0 else 10 * ParseDigits(s[..|s| - 1]) + (s[|s| - 1] as int - '0' as int)
  }

  /** Appending a digit multiplies the value by ten and adds the digit. */
  lemma ParseDigitsSnoc(s: string, c: char)
    requires AllDigits(s) && IsDigit(c)
    ensures AllDigits(s + [c]) && ParseDigits(s + [c]) == 10 * ParseDigits(s) + (c as int - '0' as int)
  {
    assert (s + [c])[..|s|] == s;
  }

  lemma {:induction false} ParseNatToString(n: nat)
    ensures ParseDigits(NatToString(n)) == n
  {
    if n >= 10 {
      ParseNatToString(n / 10);
      var s := NatToString(n);
      assert s[..|s| - 1] == NatToString(n / 10);
    }
  }

  /** A string of decimal digits, or a `+` followed by at least one digit: the
      forms of a date field that `Number` reads as a value here. */
  predicate NumberForm(s: string)
  {
    AllDigits(s) || (|s| > 1 && s[0] == '+' && AllDigits(s[1..]))
  }

  /** JavaScript `Number(s)` for the strings the date fields can hold: the empty
      string is 0, a string of decimal digits is its value, so is one signed with a
      leading `+`, and anything else is NaN. */
  function ToNumber(s: string): (r: Option<int>)
    ensures r.Some? <==> NumberForm(s)
    ensures s == "" ==> r == Some(0)
    ensures s != "" && AllDigits(s) ==> r == Some(ParseDigits(s))
    ensures r.Some? ==> r.value >= 0
  {
    if AllDigits(s) then Some(ParseDigits(s))
    else if |s| > 1 && s[0] == '+' && AllDigits(s[1..]) then Some(ParseDigits(s[1..]))
    else None
  }

  /** A leading `+` does not change the value of a digit string. */
  lemma ToNumberPlus(d: string)
    requires d != "" && AllDigits(d)
    ensures ToNumber("+" + d) == ToNumber(d)
  {
    var s := "+" + d;
    assert s[1..] == d;
    assert !IsDigit(s[0]);
  }

  lemma ToNumberOfNat(n: nat)
    ensures ToNumber(NatToString(n)) == Some(n)
  {
    ParseNatToString(n);
  }

  // ---------------------------------------------------------------------------
  // Splitting

  /** JavaScript `s.split(sep)` with a one-character separator. */
  function Split(s: string, sep: char): (r: seq<string>)
    ensures |r| >= 1
  {
    if s == [] then [""]
    else
      var rest := Split(s[1..], sep);
      if s[0] == sep then [""] + rest else [[s[0]] + rest[0]] + rest[1..]
  }

  lemma {:induction false} SplitNoSep(a: string, sep: char)
    requires sep !in a
    ensures Split(a, sep) == [a]
  {
    if a != [] {
      SplitNoSep(a[1..], sep);
      assert [a[0]] + a[1..] == a;
    }
  }

  lemma {:induction false} SplitAtSep(a: string, sep: char, b: string)
    requires sep !in a
    ensures Split(a + [sep] + b, sep) == [a] + Split(b, sep)
  {
    if a == [] {
      assert a + [sep] + b == [sep] + b;
      assert ([sep] + b)[1..] == b;
    } else {
      var s := a + [sep] + b;
      assert s[1..] == a[1..] + [sep] + b;
      SplitAtSep(a[1..], sep, b);
      assert [a[0]] + a[1..] == a;
    }
  }
}

=== FILE: wrappers.dfy ===
/** Failure-compatible values used across the model. */
module Wrappers {

  datatype Option<T> = None | Some(value: T)

  datatype Result<T, E> = Ok(value: T) | Err(error: E)
}
